=== FILE: README.md ===
# g4simple / L200 optical-photon core, modelled in Dafny

This project models the bookkeeping and decision logic of the g4simple
Geant4 application, in the variant used for the LEGEND-200 (L200)
liquid-argon optical simulation. It covers three parts.

- **MapRunAction**, the per-run hit counter. It holds one count per volume
  index. The counts are zeroed at the start of a run and bumped once per
  credited photon. An index out of range throws. The counts are reported at
  the end of the run.
- **G4SimpleSteppingAction**, the per-step work:
  - the UI commands (`SetNewValue`);
  - the lazy volume-ID cache with its ordered (pattern, replacement) rules
    and the `std::stoi` parse;
  - hit crediting, for photons detected at a boundary or caught by a fiber
    shroud;
  - the eighteen-column step-record buffer;
  - opening the output on the first step;
  - flushing the buffer when the event changes;
  - the pre-step and post-step records;
  - the destructor's final flush.
- **L200OpBoundaryProcess**, the decision skeleton of `PostStepDoIt`:
  - the early exits;
  - the "TPB magic" wavelength-shifter re-emission;
  - the refractive-index and optical-surface look-ups;
  - the same-material exit;
  - the dispatch on surface type;
  - one pass of `DielectricDielectric`: Snell's law, total internal
    reflection, the transmission coefficient and the Fresnel draw;
  - the first pass of `DielectricMetal`;
  - the status offset of `DielectricLUT`.

Everything is a pure function of its inputs. The model treats the
environment as follows:

- Random numbers are explicit inputs, one uniform value per decision point
  (`Dielectric.Draws`, and `StepInfo.fiberDraw`).
- The event number, the number of events to process and the boundary
  process's status are fields of the step (`Stepping.StepInfo`).
- The written output file is the sequence of rows the action writes
  (`Stepping.Output`).
- Vector optics is not computed. A boundary outcome names the transform it
  applies (`Dielectric.Motion`). The square root, the polarization split and
  the complex-index reflectivity are parameters (`Dielectric.Optics`).

Modules, one per file:

| file | module | models |
|---|---|---|
| `hit_counter.dfy` | `HitCounter` | `src/MapRunAction.cc` |
| `int_parse.dfy` | `IntParse` | `std::stoi` as called in `g4simple.cc` |
| `volume_ids.dfy` | `VolumeIds` | the volume-ID cache and rule scan |
| `stepping_config.dfy` | `SteppingConfig` | `SetNewValue` and the configuration |
| `step_record.dfy` | `StepRecord` | the eighteen column vectors |
| `stepping.dfy` | `Stepping` | `UserSteppingAction`, `WriteRow`, the destructor |
| `optics_types.dfy` | `OpticalTypes` | statuses, finishes, materials, surfaces |
| `dielectric.dfy` | `Dielectric` | the per-surface-type outcome selection |
| `boundary.dfy` | `BoundaryProcess` | `PostStepDoIt` |

### Where the code and its description disagree

In each of these cases the model follows the code. The one place where the
composed step departs from the code is the event label of the event-wise
flush, which is corrected (see "## Findings" and "## Left out").

- The volume-ID invariant is described as "sensitive IDs are at least 1".
  The code refuses only the replacements 0 and -1, so a rule may give a
  volume the ID -5 (`VolumeIds.Classify`).
- A volume is described as becoming "not sensitive" (-1) only when no
  pattern matched. In the code, a matching rule whose replacement is
  refused also ends the search, and it leaves -1 unless every step is
  recorded (`VolumeIds.RefusedReplacementEndsSearch`).
- An unparseable replacement is described as leaving the volume
  unclassified. In the code, `std::stoi` throws and the step fails
  (`VolumeIds.Classify`, `Stepping.UserSteppingAction`).
- The cache is described as cleared "at the start of each new output file".
  In the code it is cleared AFTER the first step's own ID has been looked up
  and cached, so that step uses the old cache (`Stepping.OpenOutput`,
  `Stepping.UserSteppingAction`).

## Model

| member | source | states |
|---|---|---|
| `HitCounter.Create` | src/MapRunAction.cc:8-12 | a new counter has exactly the requested number of indices, all zero |
| `HitCounter.BeginOfRun` | src/MapRunAction.cc:16-20 | the start of a run zeroes every count and keeps the number of indices |
| `HitCounter.Increment` | src/MapRunAction.cc:28-35 | an index outside 0..size-1 is an error (the `throw`) and leaves the counter unchanged; otherwise exactly that count goes up by one and no other count changes |
| `HitCounter.IncrementTotal` | src/MapRunAction.cc:34 | a successful increment adds exactly one hit to the counter's total |
| `HitCounter.IncrementTimesCounts` | src/MapRunAction.cc:28-35 | k increments of an in-range index succeed, add k to that index and change no other index |
| `HitCounter.IncrementTimesOutOfRange` | src/MapRunAction.cc:30-33 | repeated increments of an out-of-range index fail with that index on the first one |
| `HitCounter.Report` | src/MapRunAction.cc:22-26 | the report lists every index in ascending order with its count, zero counts included |
| `HitCounter.EndOfRun` | src/MapRunAction.cc:22-26 | the report loop produces one line per index, in order, equal to the report |
| `HitCounter.RunLifecycle` | src/MapRunAction.cc:16-35 | reset, then k hits on one index: the report shows k there and 0 everywhere else |
| `HitCounter.BeginOfRunForgets` | src/MapRunAction.cc:16-20 | two counters of the same size start a run identical, equal to a new counter |
| `IntParse.Stoi` | g4simple.cc:270 | a parsed replacement always fits a 32-bit `int` |
| `IntParse.Convert` | g4simple.cc:270 | the value is within `int`, and an invalid argument is reported exactly when no digit follows the sign |
| `IntParse.SkipSpace` | g4simple.cc:270 | the result is the input without its leading white-space run, and it does not start with white space |
| `IntParse.DigitRun` | g4simple.cc:270 | the maximal leading run of decimal digits |
| `IntParse.RenderRoundTrip` | g4simple.cc:270 | parsing the decimal rendering of an integer (plus any suffix) gives the integer back when it fits `int`, and an out-of-range error otherwise |
| `IntParse.NegativeStoi` | g4simple.cc:270 | a leading minus sign parses the digits that follow as a negative value |
| `IntParse.NoDigitsIsInvalid` | g4simple.cc:270 | a text with no digit after the white space and the sign throws an invalid argument |
| `IntParse.DecimalValueOfNatDigits` | g4simple.cc:270 | the decimal digits of n have the value n |
| `VolumeIds.FirstMatch` | g4simple.cc:266-279 | a match is found exactly when some rule's pattern equals the name, and it is the first such rule in registration order |
| `VolumeIds.Classify` | g4simple.cc:264-280 | with no matching rule the result is 0 when every step is recorded and -1 otherwise; with one, the first matching rule decides: an error when its replacement does not parse, the parsed ID when it is neither 0 nor -1, and the same 0/-1 fallback when it is |
| `VolumeIds.Assign` | g4simple.cc:262-282 | a nonzero cached ID is returned unchanged with the cache as it was; with no rules the cached value (0 for a new volume) is kept and written back; otherwise a volume at 0 fails exactly when `Classify` fails and else gets `Classify`'s ID, written into the cache |
| `VolumeIds.FirstMatchWins` | g4simple.cc:266-277 | rules appended after the first match never change the classification |
| `VolumeIds.RefusedReplacementEndsSearch` | g4simple.cc:271-280 | a first match that parses to 0 or -1 ends the search and leaves 0 or -1 by the record-all flag |
| `VolumeIds.AssignIdempotent` | g4simple.cc:262-282 | a second lookup of the same volume returns the same ID and cache |
| `VolumeIds.AssignKeepsClassifiedIds` | g4simple.cc:262-282 | a lookup never changes another volume's nonzero ID |
| `VolumeIds.InnerShroudScenario` | g4simple.cc:262-282 | the rule ("innerShroud", "7") gives ID 7 on the first step and reads it back from the cache on the next |
| `SteppingConfig.SetNewValue` | g4simple.cc:165-204 | a volume-ID command appends its rule and changes nothing else; other commands keep the rules; the option command keeps the format |
| `SteppingConfig.NextWord` | g4simple.cc:167-170 | the word and the rest together are the input without its leading white space; the word has no white space and is followed by white space or the end, as `>>` reads |
| `SteppingConfig.FormatCommandTable` | g4simple.cc:173-192 | each format name sets its own (format, recommended option) pair and nothing else |
| `SteppingConfig.OptionOverridesOnlyOption` | g4simple.cc:173-197 | an option command after a format command keeps the format and sets the option asked for |
| `SteppingConfig.EarlierRegistrationWins` | g4simple.cc:166-171 | registering a rule never changes the ID of a name an earlier rule matches |
| `SteppingConfig.VolIDArgumentsRoundTrip` | g4simple.cc:166-171 | "pattern replacement" parses back into that rule for white-space-free words |
| `StepRecord.Reset` | g4simple.cc:206-225 | all eighteen columns are emptied together |
| `StepRecord.Push` | g4simple.cc:515-537 | a push onto aligned columns keeps them aligned, adds exactly the new row at the end, and keeps every earlier row |
| `StepRecord.Rows` | g4simple.cc:227-250 | row i of the buffer is the i-th entry of every column, as `WriteRow` reads it |
| `StepRecord.FromRowsRoundTrip` | g4simple.cc:482-537 | pushing rows onto cleared columns and reading them back returns the same rows |
| `Stepping.Construct` | g4simple.cc:93-94 | the new action's buffer is empty and aligned, the file is closed and nothing is written |
| `Stepping.Credit` | g4simple.cc:291-380 | a detection, or a fiber catch (same material, shroud entered from "larVolume", draw at most the probability), increments the counter at the volume's ID exactly as `increment` does and throws when that ID is out of range; otherwise the counter is unchanged; only a fiber catch kills the track |
| `Stepping.OpenOutput` | g4simple.cc:384-444 | the first step clears the buffer and the ID cache and reads the number of events; later steps change nothing |
| `Stepping.EventChange` | g4simple.cc:446-451 | on an event change the buffer is flushed under the number of the event it was filled in, then cleared; otherwise only the event number is recorded |
| `Stepping.EventChangeAsWritten` | g4simple.cc:446-451 | the block as written keeps the buffer's columns aligned |
| `Stepping.Record` | g4simple.cc:515-539 | one push adds exactly its row, the step-wise option writes exactly that row under the current event number, and no other field changes |
| `Stepping.RecordPre` | g4simple.cc:482-507 | the buffer gains exactly the pre-step row (step number 0, no deposit) when it is empty or, with all steps recorded, on a track's first step; the step-wise option writes it; nothing else changes |
| `Stepping.RecordPost` | g4simple.cc:509-539 | the buffer gains exactly the post-step row when the volume is sensitive and energy was deposited or all steps are recorded; the step-wise option writes it; nothing else changes |
| `Stepping.Advance` | g4simple.cc:384-539 | the buffer keeps its rows only within one open event and gains the pre and post rows; step-wise output is exactly the added rows; event-wise output is the flush only; the first step (file still closed) empties the volume-ID cache and takes the run's event count, later steps keep both |
| `Stepping.UserSteppingAction` | g4simple.cc:257-540 | the step throws exactly when the replacement does not parse or a credited photon's ID is out of the counter's range; otherwise the ID is the cache's, the counter is incremented exactly for a credited photon, the kill flag is the fiber catch, no buffered row ever has ID -1, the buffer and the output grow as described for `Stepping.Advance`, and the cache afterwards is the lookup's cache, or empty after the first step, which clears it after the lookup |
| `Stepping.Close` | g4simple.cc:150-157 | the destructor flushes the event-wise buffer under the current event number and closes the file |
| `Stepping.StepLeavesRecord` | g4simple.cc:482-507 | after any successful step the buffer holds at least one row |
| `Stepping.NewEventStartsEmpty` | g4simple.cc:446-451 | after the first step of a new event the buffer holds just that step's rows |
| `Stepping.EventChangeAsWrittenMislabels` | g4simple.cc:446-451 | as written, the buffer filled in event e is flushed under the next event's number, which is not e |
| `Stepping.MislabelScenario` | g4simple.cc:446-451 | the two rows of event 0 are written as event 1 by the block as written, and as event 0 by the corrected one |
| `Stepping.EventChangeLabelsFilledEvent` | g4simple.cc:446-451 | corrected, the buffer filled in event e is flushed under e |
| `Stepping.CloseLabelsLastEvent` | g4simple.cc:150-157 | the destructor writes the last event under its own number |
| `Stepping.InsensitiveDetectionThrows` | g4simple.cc:319-325 | a detection in a volume with ID -1 throws |
| `Stepping.SingleIndexCounterRejectsClassifiedVolumes` | g4simple.cc:636 | with the one-index counter, every credited photon throws in a volume whose cached ID is not 0, and in a newly seen volume once rules exist and only sensitive volumes are recorded |
| `OpticalTypes.StatusOrdinal` | src/L200OpBoundaryProcess.cc:745-746 | the integer value of a status, and casting it back gives the status |
| `OpticalTypes.FinishOrdinal` | src/L200OpBoundaryProcess.cc:745-746 | the integer value of a finish, its position in the enumeration |
| `OpticalTypes.StatusCastRoundTrip` | src/L200OpBoundaryProcess.cc:745-746 | casting any in-range integer to a status and back gives the integer |
| `Dielectric.DoAbsorption` | src/L200OpBoundaryProcess.cc:402-403 | the photon is killed; detection happens exactly when the efficiency draw succeeds, and only a detection deposits the momentum |
| `Dielectric.DoReflection` | src/L200OpBoundaryProcess.cc:405-411 | a Lambertian reflection stays Lambertian; any other is a lobe reflection on a ground finish and a spike reflection otherwise; never kills |
| `Dielectric.ChooseReflection` | src/L200OpBoundaryProcess.cc:848-849 | one of spike, lobe, back-scatter, Lambertian; spike exactly when the draw is in [0, spike probability) |
| `Dielectric.ChooseReflectionBands` | src/L200OpBoundaryProcess.cc:848-849 | for nonnegative probabilities the draw picks spike, lobe, back-scatter and Lambertian in consecutive bands |
| `Dielectric.Scatter` | src/L200OpBoundaryProcess.cc:851-865 | the chosen reflection keeps its status, never kills and deposits nothing |
| `Dielectric.Snell` | src/L200OpBoundaryProcess.cc:830-838 | near-normal incidence gives zero sines; otherwise Snell's law sin1 n1 = sin2 n2 holds with a positive incidence sine |
| `Dielectric.CosT2` | src/L200OpBoundaryProcess.cc:867-876 | the refraction cosine is nonzero and has the sign of the incidence cosine |
| `Dielectric.TransCoeff` | src/L200OpBoundaryProcess.cc:898-908 | a positive surface transmittance is taken as is; otherwise the Fresnel ratio s2/s1 when the incidence cosine is nonzero, and 0 when it is zero |
| `Dielectric.FresnelRatioBounded` | src/L200OpBoundaryProcess.cc:898-907 | the Fresnel ratio s2/s1 lies between 0 and the incident intensity E1_perp^2 + E1_parl^2 |
| `Dielectric.TransCoeffIsProbability` | src/L200OpBoundaryProcess.cc:878-908 | for a unit polarization and a transmittance at most 1 the coefficient is in [0, 1] |
| `Dielectric.DielectricPass` | src/L200OpBoundaryProcess.cc:819-987 | never kills; refraction only below a refraction sine of 1, and there exactly when the draw is below the transmission coefficient; otherwise total internal reflection (sine at least 1) or Fresnel reflection, replaced by ChooseReflection's status only on an unpolished unified-model surface |
| `Dielectric.DielectricPassStatuses` | src/L200OpBoundaryProcess.cc:840-987 | a pass ends with a refraction or one of the six reflection statuses |
| `Dielectric.TotalInternalReflectionNeverRefracts` | src/L200OpBoundaryProcess.cc:840-849 | a refraction sine of at least 1 never refracts, and is total internal reflection off unpolished unified surfaces |
| `Dielectric.CriticalAngle` | src/L200OpBoundaryProcess.cc:830-840 | total internal reflection happens exactly when sin1 n1 is at least n2 |
| `Dielectric.MatchedIndexNormalIncidence` | src/L200OpBoundaryProcess.cc:898-988 | equal indices at normal incidence give coefficient 1: the photon is refracted straight on |
| `Dielectric.LutStatusMatchesName` | src/L200OpBoundaryProcess.cc:745-746 | every look-up-table finish lands on the reflection status of the same name; a basic finish lands on Absorption .. NoRINDEX |
| `Dielectric.LutOffset` | src/L200OpBoundaryProcess.cc:745-746 | the offset NoRINDEX - groundbackpainted is 8 |
| `Dielectric.LutFirstPass` | src/L200OpBoundaryProcess.cc:745-753 | absorbed exactly when the reflectivity draw fails; otherwise the finish's LUT status with a table-sampled direction |
| `Dielectric.MetalFirstPass` | src/L200OpBoundaryProcess.cc:648-690 | absorbed exactly when the reflectivity draw fails; otherwise glisur or polished gives lobe on ground and spike otherwise, and any other surface (unified or look-up-table model, not polished) gives ChooseReflection's status |
| `BoundaryProcess.GlobalNormal` | src/L200OpBoundaryProcess.cc:136-173 | the normal is the exit normal or its negation, oriented against the photon's momentum |
| `BoundaryProcess.FirstAccepted` | src/L200OpBoundaryProcess.cc:473-480 | the rejection loop stops at the first candidate strictly inside the unit ball |
| `BoundaryProcess.PostStepDoIt` | src/L200OpBoundaryProcess.cc:78-489 | off the boundary or on a tiny step the photon is left as it is; TPBMagic exactly on the re-emission condition, with 450 nm energy, no kill and the first accepted direction; kills only with NoRINDEX, Undefined, Absorption or Detection; no deposit without a kill; NoRINDEX outside a look-up-table surface kills and deposits the photon's energy, and arises only from a missing index in the pre-step material, on a back-painted surface or behind a polished or ground dielectric boundary |
| `BoundaryProcess.WithSurface` | src/L200OpBoundaryProcess.cc:210-423 | a back-painted surface without a table, or whose table lacks an index, kills the photon (Undefined or NoRINDEX) and deposits its energy; every other surface hands the parameters of `BoundaryProcess.SurfaceRead` and the memory of `BoundaryProcess.ReadMemory` to the dispatch; kills only with NoRINDEX, Undefined, Absorption or Detection, never re-emits, and NoRINDEX arises only from a look-up-table surface, a back-painted surface without an index, or a missing index behind a polished or ground dielectric boundary, killing and depositing the energy outside the look-up-table case; a non-back-painted metal or look-up-table surface kills exactly when the draw fails against the table's reflectivity (REFLECTIVITY, else the complex-index value, else 1), and a look-up-table one otherwise takes its finish's table status; a non-back-painted surface of an unhandled type ends Undefined with no kill, no momentum or polarization change proposed, and the track's velocity proposed |
| `BoundaryProcess.Dispatch` | src/L200OpBoundaryProcess.cc:354-423 | the same material behind a polished or ground dielectric_dielectric surface gives SameMaterial with no kill, no momentum or polarization change proposed, and the track's velocity proposed; apart from a look-up-table surface, that is the only way to SameMaterial, and a missing index in a different material behind such a surface is the only way to NoRINDEX; a polished or ground dielectric_dielectric surface into a different material with an index hands the entered material's RINDEX to the treatment as the second index, and one of any other finish the index in memory; any surface type other than dielectric_dielectric goes straight to the type's treatment, and one other than dielectric_metal, dielectric_LUT and dielectric_dielectric ends Undefined with no kill, no momentum or polarization change proposed, and the track's velocity proposed |
| `BoundaryProcess.Interact` | src/L200OpBoundaryProcess.cc:379-443 | an unknown surface type ends Undefined with no kill, no momentum or polarization change proposed, and the track's velocity proposed; for the three handled types the status, kill, deposit and motion are the type's treatment's (see `BoundaryProcess.TreatByType`), so metal and look-up-table surfaces kill exactly when the reflectivity draw fails and a look-up-table one otherwise takes its finish's table status; a refraction proposes the entered material's group velocity, or the missing-velocity marker when it has none, and every other outcome the track's velocity |
| `BoundaryProcess.TreatByType` | src/L200OpBoundaryProcess.cc:379-417 | metal and look-up-table surfaces absorb exactly when the reflectivity draw fails; otherwise a glisur or polished metal surface gives a lobe reflection on ground and a spike reflection otherwise, any other metal surface (unified or look-up-table model, not polished) ChooseReflection's status, and a look-up-table surface its finish's table status with a table-sampled direction; a dielectric_dielectric surface is treated exactly as `BoundaryProcess.TreatDielectric` states |
| `BoundaryProcess.SurfaceRead` | src/L200OpBoundaryProcess.cc:210-343 | without a surface, a polished glisur dielectric_dielectric boundary of reflectivity 1, efficiency 0 and transmittance 0; with one, its type, model and finish, the table's reflectivity, and its EFFICIENCY and TRANSMITTANCE, each 0 when absent; the unified probabilities are those `BoundaryProcess.ReadMemory` leaves |
| `BoundaryProcess.ReadMemory` | src/L200OpBoundaryProcess.cc:262-343 | a unified surface with a table sets the spike, lobe and back-scatter probabilities from SPECULARSPIKECONSTANT, SPECULARLOBECONSTANT and BACKSCATTERCONSTANT, each 0 when absent; any other surface keeps the previous step's values; a back-painted surface's RINDEX becomes the second index, which is otherwise kept |
| `BoundaryProcess.TreatDielectric` | src/L200OpBoundaryProcess.cc:395-417 | a back-painted surface runs the pass and never absorbs; any other is absorbed exactly when the reflectivity draw fails, and otherwise polishedfrontpainted gives a spike reflection about the normal, groundfrontpainted a Lambertian reflection, and every other finish the dielectric pass |
| `BoundaryProcess.EarlyExitsIgnoreMaterials` | src/L200OpBoundaryProcess.cc:97-106 | off the boundary or on a tiny step, the result is the early status whatever the materials and draws |
| `BoundaryProcess.NoSurfaceNoAbsorption` | src/L200OpBoundaryProcess.cc:210-218 | without an optical surface a photon is never absorbed or detected, and dies only for a missing index |
| `BoundaryProcess.SameMaterialPassesThrough` | src/L200OpBoundaryProcess.cc:354-361 | same material and no surface: SameMaterial, no kill, only the track's velocity proposed |
| `BoundaryProcess.MissingIndexKills` | src/L200OpBoundaryProcess.cc:186-208 | a pre-step material without an index kills the photon, which deposits its energy |
| `BoundaryProcess.BackPaintMissingIndexKills` | src/L200OpBoundaryProcess.cc:266-279 | a back-painted surface whose table has no refractive index kills the photon with NoRINDEX and deposits its energy |
| `BoundaryProcess.BackPaintWithoutTableKills` | src/L200OpBoundaryProcess.cc:346-351 | a back-painted surface without a property table kills the photon and deposits its energy, the status left Undefined |
| `BoundaryProcess.PostMaterialMissingIndexKills` | src/L200OpBoundaryProcess.cc:354-375 | a polished or ground dielectric boundary into a different material without a refractive index kills the photon with NoRINDEX and deposits its energy |
| `BoundaryProcess.UnknownSurfaceTypeUndefined` | src/L200OpBoundaryProcess.cc:418-423 | a surface of a type the process does not handle ends with Undefined, no kill, no deposit, no momentum or polarization change proposed, and the track's velocity proposed |
| `BoundaryProcess.MetalSurfaceOutcome` | src/L200OpBoundaryProcess.cc:282-388 | end to end, a non-back-painted dielectric_metal surface kills (absorption or detection) exactly when the draw fails against the table's reflectivity; otherwise it reflects in one of the four ways with nothing deposited; the track's velocity is proposed |
| `BoundaryProcess.LutSurfaceOutcome` | src/L200OpBoundaryProcess.cc:282-393 | end to end, a non-back-painted dielectric_LUT surface kills exactly when the draw fails against the table's reflectivity; otherwise it ends with its finish's table status and a table-sampled direction; the track's velocity is proposed |
| `BoundaryProcess.DielectricSurfaceOutcome` | src/L200OpBoundaryProcess.cc:210-417 | end to end, a polished or ground dielectric_dielectric boundary (or none) into a different material with an index absorbs exactly when the draw fails against the read reflectivity; otherwise the status and direction are those of the DielectricDielectric pass between the pre-step material's index and the entered material's index, with the surface's parameters; nothing is deposited without a kill; memory keeps the read probabilities and the entered material's index |
| `BoundaryProcess.DefaultRarelyReemits` | src/L200OpBoundaryProcess.cc:57-59 | with the constructor's probability 0, a positive first draw never re-emits |
| `BoundaryProcess.ReemissionScenario` | src/L200OpBoundaryProcess.cc:447-488 | a 128 nm photon entering the fiber from argon with probability 1 is re-emitted at 450 nm along the first accepted candidate |

## Left out

- Output file I/O (the analysis manager, ntuple creation, file naming, the
  formats' encodings) and console messages: the written rows are modelled as a
  sequence of `Stepping.Output` values.
- The Geant4 run, event and track managers: the event ID, the number of
  events to process and the boundary status arrive as fields of
  `Stepping.StepInfo`; the "unknown output option" branch cannot occur with a
  two-valued option.
- `Stepping.UserSteppingAction`: requires the state invariant (aligned columns,
  no buffered row with ID -1) which every reachable state satisfies, as the
  constructor and every step preserve it.
- Counts are unbounded naturals; the C++ `unsigned` counter's wrap-around after
  2^32 hits is not modelled.
- `Stepping.Advance`: composes the corrected event change, so on a change of
  event the event-wise flush is labelled with the event the buffer was filled
  in. The source labels it with the new event's number (lines 446-449 of
  `g4simple.cc`). The code as written is `Stepping.EventChangeAsWritten`.
- `Stepping.UserSteppingAction`: inherits the corrected flush label of
  `Stepping.Advance`. Its event-wise output differs from the source's only in
  that label.
- Later passes of the `DielectricMetal` and `DielectricDielectric` loops, the
  `Swap`/`Through` bookkeeping and the back-painted tail (lines 1006-1030 of
  `src/L200OpBoundaryProcess.cc`): only the first pass is modelled. Whether
  these loops repeat depends on the new momentum direction, which is vector
  optics the model does not compute.
- `Dielectric.LutFirstPass`: models one pass of the `DielectricLUT` loop,
  ending with the absorption when the reflectivity draw fails. In the source
  (lines 751-796) there is no `break` after `DoAbsorption()`, unlike
  `DielectricMetal` (line 663). `DoAbsorption` leaves the momentum as it was,
  which faces against the global normal, so the loop condition holds and the
  loop draws again. With a reflectivity of at most 0 the loop never ends. When
  a later draw succeeds, the photon is reflected while keeping the absorption
  status and the kill. The model states neither the repetition nor the
  non-termination.
- Vector optics: new momentum and polarization vectors, their normalisation
  (`unit()`), facet sampling (`GetFacetNormal`), the Lambertian direction,
  the look-up-table angular sampling; the outcome names the transform instead.
- `CalculateReflectivity` and `GetReflectivity` (complex refractive index):
  the reflectivity they compute is the parameter `Optics.complexReflectivity`.
- The border/skin surface look-up through the navigator: the optical surface
  found is an input of the step.
- The invalid-normal exception raised when the navigator reports no valid
  normal: the model always takes the exit normal it is given.
- The header `L200OpBoundaryProcess.hh` is not part of this model:
  `G4BooleanRand`, `DoAbsorption`, `DoReflection` and `ChooseReflection`
  follow the standard Geant4 inline definitions, and the status enumeration is
  assumed to list the look-up-table reflections right after `NoRINDEX` and
  `TPBMagic` last.
- `BoundaryProcess.PostStepDoIt`: requires positive refractive indices (and a
  positive index left by an earlier step where a look-up-table finish on a
  dielectric_dielectric surface reads it) and a re-emission sampler that halts
  on the given draws; the source divides by the indices and loops until
  acceptance without guarding either.
- Material property vectors are given by their value at the photon's energy;
  reading a group velocity from a material without a table (a crash in the
  source) is the value `MissingGroupVelocity`.
- IEEE floating point: reals are exact, so rounding, infinities and NaN are
  not modelled.
- `include/L200ParticleGenerator.hh` (the primary generator) and the run
  manager's commands other than the counter's construction are outside the
  modelled core.

## Findings

| source | as written | input that shows it | evidently intended | confidence | as-written member | corrected member |
|---|---|---|---|---|---|---|
| g4simple.cc:446-451 | `fEventNumber` is set to the new event's ID before the event-wise flush, so `WriteRow` labels the previous event's buffer with the new event's number | event-wise output, one step of event 0 that deposits energy, then any step of event 1: the row holding event 0's records is written with event = 1 | the flushed buffer carries the number of the event it was filled in (`lastEventID`) | high, not executed | `Stepping.EventChangeAsWritten` (shown by `Stepping.EventChangeAsWrittenMislabels`, `Stepping.MislabelScenario`) | `Stepping.EventChange` (proved by `Stepping.EventChangeLabelsFilledEvent`) |

=== FILE: boundary.dfy ===
/** PostStepDoIt of the L200 optical boundary process: the early exits, the
    wavelength-shifter re-emission ("TPB magic") that replaces the optics for
    photons entering the fiber material near the argon scintillation
    wavelength, and otherwise the Geant4 boundary decision: refractive index
    look-up, surface resolution, the same-material exit, and the dispatch on
    the surface type.

    The photon's total momentum and its kinetic energy coincide for an optical
    photon, so the step carries one `energy` (MeV); lengths are in millimetres,
    Geant4's internal unit. */
module BoundaryProcess {
  import opened OpticalTypes
  import opened Dielectric

  /** One nanometre, in millimetres. */
  const Nm: real := 0.000001

  const TwoPi: real := 6.283185307179586

  /** 2 pi hbar c in MeV mm (the file's `lambda`): photon wavelength times
      photon energy. */
  const Lambda: real := TwoPi * 0.0000000001973269602

  /** The re-emission settings: the fiber material's name, the argon
      scintillation wavelength, and the probability of re-emission. */
  datatype MagicConfig = MagicConfig(material: string, larWL: real, prob: real)

  /** The values the constructor sets (lines 57-59). */
  const DefaultMagic: MagicConfig := MagicConfig("LiquidArgonFiber", 128.0 * Nm, 0.0)

  /** The wavelength of a re-emitted photon, 450 nm, as an energy. */
  const SecondaryEnergy: real := Lambda / (450.0 * Nm)

  /** Member values that one step leaves for the next: the unified model's
      probabilities and the second refractive index. */
  datatype Memory = Memory(probSpike: real, probLobe: real, probBack: real, rindex2: real)

  /** The values in a newly constructed process (lines 37-39, 55). */
  const Fresh: Memory := Memory(0.0, 0.0, 0.0, 0.0)

  /** What the process reads of the track and the step. `surface` is the
      optical surface the border/skin lookup finds between the two volumes. */
  datatype Step = Step(
    atBoundary: bool,
    stepLength: real,
    pre: Material,
    post: Material,
    energy: real,
    momentum: Vec3,
    polarization: Vec3,
    exitNormal: Vec3,
    surface: Option<OpticalSurface>)

  /** The velocity the process proposes: none, the track's own, or the group
      velocity of the material entered. `MissingGroupVelocity` stands for the
      source reading the group velocity of a material that has no property
      table. */
  datatype Velocity = NotProposed | TrackVelocity | GroupVelocity(value: real) | MissingGroupVelocity

  /** The particle change, and the member values left for the next step. */
  datatype Change = Change(
    status: Status, kill: bool, deposit: real, motion: Motion,
    energy: Option<real>, velocity: Velocity, memory: Memory)

  /** Lines 136-173: the exit normal is negated, and flipped back when it would
      point along the photon, so that it always faces the incoming photon. */
  function GlobalNormal(momentum: Vec3, exitNormal: Vec3): (n: Vec3)
    ensures Dot(momentum, n) <= 0.0
    ensures n == exitNormal || n == Neg(exitNormal)
  {
    var n := Neg(exitNormal);
    NegFlipsDot(momentum, exitNormal);
    if Dot(momentum, n) > 0.0 then Neg(n) else n
  }

  lemma NegFlipsDot(a: Vec3, b: Vec3)
    ensures Dot(a, Neg(b)) == -Dot(a, b)
    ensures Neg(Neg(b)) == b
  {
    assert a.x * -b.x == -(a.x * b.x);
    assert a.y * -b.y == -(a.y * b.y);
    assert a.z * -b.z == -(a.z * b.z);
  }

  /** Lines 174-178: the re-emission replaces the optics when the photon enters
      the fiber material from another material, its wavelength lies within
      1 nm of the argon line, and the first draw does not exceed the
      probability. A zero energy gives an infinite wavelength, outside the
      window. */
  predicate Magic(cfg: MagicConfig, step: Step, fcov: real) {
    && step.post.name == cfg.material
    && step.pre.name != cfg.material
    && step.energy != 0.0
    && cfg.larWL - 1.0 * Nm <= Lambda / step.energy <= cfg.larWL + 1.0 * Nm
    && fcov <= cfg.prob
  }

  /** A triple of uniform draws scaled to the cube [-1, 1)^3 (lines 476-478). */
  function Candidate(u: Vec3): Vec3 {
    Vec3(u.x * 2.0 - 1.0, u.y * 2.0 - 1.0, u.z * 2.0 - 1.0)
  }

  /** The sampler keeps a candidate strictly inside the unit ball (line 480). */
  predicate Accepted(u: Vec3) {
    NormSquared(Candidate(u)) < 1.0
  }

  predicate SamplerHalts(cube: seq<Vec3>) {
    exists i :: 0 <= i < |cube| && Accepted(cube[i])
  }

  /** The rejection loop: the index of the first accepted candidate. */
  function FirstAccepted(cube: seq<Vec3>): (k: nat)
    requires SamplerHalts(cube)
    ensures k < |cube| && Accepted(cube[k])
    ensures forall j :: 0 <= j < k ==> !Accepted(cube[j])
  {
    if Accepted(cube[0]) then 0
    else
      assert SamplerHalts(cube[1..]) by {
        var i :| 0 <= i < |cube| && Accepted(cube[i]);
        assert i > 0 && cube[1..][i - 1] == cube[i];
      }
      var k := FirstAccepted(cube[1..]);
      assert forall j :: 1 <= j < k + 1 ==> cube[j] == cube[1..][j - 1];
      k + 1
  }

  /** The refractive indices are positive wherever the decision may divide by
      them: in both materials' tables, in the surface's table, and in the
      index a previous step left behind when a dielectric_dielectric surface
      with a look-up-table finish reads it. */
  predicate PositiveIndices(mem: Memory, step: Step) {
    && (step.pre.table.Some? && step.pre.table.value.rindex.Some? ==> step.pre.table.value.rindex.value > 0.0)
    && (step.post.table.Some? && step.post.table.value.rindex.Some? ==> step.post.table.value.rindex.value > 0.0)
    && (SurfaceIndex(step).Some? ==> SurfaceIndex(step).value > 0.0)
    && (ReadsStaleIndex(step) ==> mem.rindex2 > 0.0)
  }

  function SurfaceIndex(step: Step): Option<real> {
    if step.surface.Some? && step.surface.value.table.Some? then step.surface.value.table.value.rindex else None
  }

  /** A dielectric_dielectric surface whose finish is neither polished, ground,
      nor painted: the pass reads the second index without setting it. */
  predicate ReadsStaleIndex(step: Step) {
    step.surface.Some? && step.surface.value.kind == DielectricDielectric && !BasicFinish(step.surface.value.finish)
  }

  predicate LutSurface(step: Step) {
    step.surface.Some? && step.surface.value.kind == DielectricLUT
  }

  /** A back-painted surface whose property table has no refractive index
      (lines 266-279). */
  predicate BackPaintLacksIndex(step: Step) {
    && step.surface.Some? && BackPainted(step.surface.value.finish)
    && step.surface.value.table.Some? && step.surface.value.table.value.rindex.None?
  }

  /** A polished or ground dielectric_dielectric boundary (the default when no
      surface is found) into a different material without a refractive index
      (lines 354-375). */
  predicate PostLacksIndex(step: Step) {
    && (step.surface.None?
        || (step.surface.value.kind == DielectricDielectric && PolishedOrGround(step.surface.value.finish)))
    && step.pre.handle != step.post.handle
    && RefractiveIndex(step.post).None?
  }

  function Early(status: Status, mem: Memory): Change {
    Change(status, false, 0.0, NoProposal, None, NotProposed, mem)
  }

  /** The NoRINDEX and back-painted exits: the photon is killed and deposits
      its momentum. */
  function Killed(status: Status, step: Step, mem: Memory): Change {
    Change(status, true, step.energy, NoProposal, None, TrackVelocity, mem)
  }

  function RefractiveIndex(m: Material): Option<real> {
    if m.table.Some? then m.table.value.rindex else None
  }

  function Otherwise(v: Option<real>, default: real): real {
    if v.Some? then v.value else default
  }

  /** PostStepDoIt (lines 78-489). */
  function PostStepDoIt(cfg: MagicConfig, mem: Memory, step: Step, d: Draws, o: Optics): (c: Change)
    requires PositiveRoots(o.sqrt) && PositiveIndices(mem, step)
    requires Magic(cfg, step, d.fcov) ==> SamplerHalts(d.cube)
    ensures !step.atBoundary ==> c == Early(NotAtBoundary, mem)
    ensures step.atBoundary && step.stepLength <= CarTolerance / 2.0 ==> c == Early(StepTooSmall, mem)
    ensures c.status == TPBMagic <==>
              step.atBoundary && step.stepLength > CarTolerance / 2.0 && Magic(cfg, step, d.fcov)
    ensures c.status == TPBMagic ==>
              c.energy == Some(SecondaryEnergy) && !c.kill && c.velocity == NotProposed
              && c.motion == Isotropic(Candidate(d.cube[FirstAccepted(d.cube)]))
    ensures c.kill ==> c.status in {NoRINDEX, Undefined, Absorption, Detection}
    ensures !c.kill ==> c.deposit == 0.0
    ensures c.status == NoRINDEX ==> (c.kill && c.deposit == step.energy) || LutSurface(step)
    ensures c.status == NoRINDEX ==>
              LutSurface(step) || RefractiveIndex(step.pre).None? || BackPaintLacksIndex(step) || PostLacksIndex(step)
  {
    if !step.atBoundary then Early(NotAtBoundary, mem)
    else if step.stepLength <= CarTolerance / 2.0 then Early(StepTooSmall, mem)
    else
      var normal := GlobalNormal(step.momentum, step.exitNormal);
      if Magic(cfg, step, d.fcov) then
        Change(TPBMagic, false, 0.0, Isotropic(Candidate(d.cube[FirstAccepted(d.cube)])),
               Some(SecondaryEnergy), NotProposed, mem)
      else
        match RefractiveIndex(step.pre)
        case None => Killed(NoRINDEX, step, mem)
        case Some(r1) => WithSurface(r1, mem, step, normal, d, o)
  }

  /** Lines 210-351: the defaults, then the optical surface's type, model,
      finish and property table. */
  function WithSurface(r1: real, mem: Memory, step: Step, normal: Vec3, d: Draws, o: Optics): (c: Change)
    requires r1 > 0.0 && PositiveRoots(o.sqrt) && PositiveIndices(mem, step)
    ensures c.kill ==> c.status in {NoRINDEX, Undefined, Absorption, Detection}
    ensures !c.kill ==> c.deposit == 0.0
    ensures c.status == NoRINDEX ==> (c.kill && c.deposit == step.energy) || LutSurface(step)
    ensures c.status != TPBMagic
    ensures c.status == NoRINDEX ==> LutSurface(step) || BackPaintLacksIndex(step) || PostLacksIndex(step)
    ensures SurfaceKills(step) ==>
              c == Killed(if step.surface.value.table.None? then Undefined else NoRINDEX, step, mem)
    ensures !SurfaceKills(step) ==>
              c == Dispatch(SurfaceRead(step.surface, mem, o), r1, ReadMemory(step.surface, mem), step, normal, d, o)
    ensures && step.surface.Some? && !BackPainted(step.surface.value.finish)
            && !(step.surface.value.kind in {DielectricMetal, DielectricLUT, DielectricDielectric}) ==>
              c.status == Undefined && !c.kill && c.motion == NoProposal
    ensures && step.surface.Some? && !BackPainted(step.surface.value.finish)
            && step.surface.value.kind in {DielectricMetal, DielectricLUT} ==>
              && (c.kill <==> !BooleanRand(d.reflect, Reflectivity(step.surface.value, o)))
              && (step.surface.value.kind == DielectricLUT && !c.kill ==>
                    c.status == LutStatus(step.surface.value.finish) && c.motion == LutSampled)
  {
    if SurfaceKills(step) then
      Killed(if step.surface.value.table.None? then Undefined else NoRINDEX, step, mem)
    else
      Dispatch(SurfaceRead(step.surface, mem, o), r1, ReadMemory(step.surface, mem), step, normal, d, o)
  }

  /** A back-painted surface with no property table, or with one that lacks a
      refractive index, ends the step before any dispatch (lines 266-279,
      346-351). */
  predicate SurfaceKills(step: Step) {
    && step.surface.Some? && BackPainted(step.surface.value.finish)
    && (step.surface.value.table.None? || step.surface.value.table.value.rindex.None?)
  }

  /** The parameters the surface look-up leaves for the treatment (lines
      210-216 and 254-343): without a surface a polished glisur
      dielectric_dielectric boundary of reflectivity 1; otherwise the
      surface's type, model and finish, and from its table the reflectivity,
      EFFICIENCY and TRANSMITTANCE, each 0 when absent, and, on a unified
      surface, the three probabilities. The probabilities not read keep the
      previous step's values. */
  function SurfaceRead(surface: Option<OpticalSurface>, mem: Memory, o: Optics): (p: SurfaceParams)
    ensures surface.None? ==>
              p == SurfaceParams(DielectricDielectric, Glisur, Polished, 1.0, 0.0, 0.0,
                                 mem.probSpike, mem.probLobe, mem.probBack)
    ensures surface.Some? ==>
              && p.kind == surface.value.kind && p.model == surface.value.model
              && p.finish == surface.value.finish
              && p.reflectivity == Reflectivity(surface.value, o)
    ensures surface.Some? && surface.value.table.None? ==> p.efficiency == 0.0 && p.transmittance == 0.0
    ensures surface.Some? && surface.value.table.Some? ==>
              && p.efficiency == Otherwise(surface.value.table.value.efficiency, 0.0)
              && p.transmittance == Otherwise(surface.value.table.value.transmittance, 0.0)
    ensures var m := ReadMemory(surface, mem);
            p.probSpike == m.probSpike && p.probLobe == m.probLobe && p.probBack == m.probBack
  {
    var m := ReadMemory(surface, mem);
    var defaults := SurfaceParams(DielectricDielectric, Glisur, Polished, 1.0, 0.0, 0.0,
                                  m.probSpike, m.probLobe, m.probBack);
    match surface
    case None => defaults
    case Some(s) =>
      var p := defaults.(kind := s.kind, model := s.model, finish := s.finish, reflectivity := Reflectivity(s, o));
      match s.table
      case None => p
      case Some(t) => p.(efficiency := Otherwise(t.efficiency, 0.0), transmittance := Otherwise(t.transmittance, 0.0))
  }

  /** The member values the surface look-up leaves for later steps: a unified
      surface's table sets the three probabilities, 0 for an absent entry
      (lines 316-343), and a back-painted surface's table sets the second
      refractive index (lines 266-270); everything else keeps its value. */
  function ReadMemory(surface: Option<OpticalSurface>, mem: Memory): (m: Memory)
    ensures (surface.Some? && surface.value.table.Some? && surface.value.model == Unified) ==>
              var t := surface.value.table.value;
              && m.probSpike == Otherwise(t.specularSpike, 0.0)
              && m.probLobe == Otherwise(t.specularLobe, 0.0)
              && m.probBack == Otherwise(t.backScatter, 0.0)
    ensures !(surface.Some? && surface.value.table.Some? && surface.value.model == Unified) ==>
              m.probSpike == mem.probSpike && m.probLobe == mem.probLobe && m.probBack == mem.probBack
    ensures m.rindex2 ==
              if surface.Some? && BackPainted(surface.value.finish) && surface.value.table.Some?
                 && surface.value.table.value.rindex.Some?
              then surface.value.table.value.rindex.value
              else mem.rindex2
  {
    match surface
    case None => mem
    case Some(s) =>
      match s.table
      case None => mem
      case Some(t) =>
        var m1 := if BackPainted(s.finish) && t.rindex.Some? then mem.(rindex2 := t.rindex.value) else mem;
        if s.model == Unified then
          m1.(probSpike := Otherwise(t.specularSpike, 0.0),
              probLobe := Otherwise(t.specularLobe, 0.0),
              probBack := Otherwise(t.backScatter, 0.0))
        else m1
  }

  /** The reflectivity a surface leaves for the draw (lines 282-300): the
      table's REFLECTIVITY, else the value computed from REALRINDEX and
      IMAGINARYRINDEX when both are present, else the default 1. */
  function Reflectivity(s: OpticalSurface, o: Optics): real {
    match s.table
    case None => 1.0
    case Some(t) =>
      if t.reflectivity.Some? then t.reflectivity.value
      else if t.realRindex.Some? && t.imaginaryRindex.Some? then o.complexReflectivity
      else 1.0
  }

  /** Lines 354-377: on a polished or ground dielectric_dielectric surface, the
      same-material exit and the second material's refractive index. */
  function Dispatch(p: SurfaceParams, r1: real, mem: Memory, step: Step, normal: Vec3, d: Draws, o: Optics): (c: Change)
    requires r1 > 0.0 && PositiveRoots(o.sqrt)
    requires p.kind == DielectricDielectric && (BackPainted(p.finish) || !BasicFinish(p.finish)) ==> mem.rindex2 > 0.0
    requires RefractiveIndex(step.post).Some? ==> RefractiveIndex(step.post).value > 0.0
    ensures c.kill ==> c.status in {NoRINDEX, Undefined, Absorption, Detection}
    ensures !c.kill ==> c.deposit == 0.0
    ensures c.status == NoRINDEX ==> (c.kill && c.deposit == step.energy) || p.kind == DielectricLUT
    ensures c.status != TPBMagic
    ensures p.kind == DielectricDielectric && PolishedOrGround(p.finish) && step.pre.handle == step.post.handle ==>
              c.status == SameMaterial && !c.kill && c.motion == NoProposal
    ensures c.status == SameMaterial ==>
              (p.kind == DielectricDielectric && PolishedOrGround(p.finish) && step.pre.handle == step.post.handle)
              || p.kind == DielectricLUT
    ensures c.status == NoRINDEX ==>
              || p.kind == DielectricLUT
              || (&& p.kind == DielectricDielectric && PolishedOrGround(p.finish)
                  && step.pre.handle != step.post.handle && RefractiveIndex(step.post).None?)
    ensures !(p.kind in {DielectricMetal, DielectricLUT, DielectricDielectric}) ==>
              c == Change(Undefined, false, 0.0, NoProposal, None, TrackVelocity, mem)
    ensures p.kind != DielectricDielectric ==> c == Interact(p, r1, mem, step, normal, d, o)
    ensures p.kind == DielectricDielectric && !PolishedOrGround(p.finish) ==> c == Interact(p, r1, mem, step, normal, d, o)
    ensures && p.kind == DielectricDielectric && PolishedOrGround(p.finish)
            && step.pre.handle != step.post.handle && RefractiveIndex(step.post).Some? ==>
              c == Interact(p, r1, mem.(rindex2 := RefractiveIndex(step.post).value), step, normal, d, o)
  {
    if p.kind == DielectricDielectric && PolishedOrGround(p.finish) then
      if step.pre.handle == step.post.handle then Change(SameMaterial, false, 0.0, NoProposal, None, TrackVelocity, mem)
      else
        match RefractiveIndex(step.post)
        case None => Killed(NoRINDEX, step, mem)
        case Some(r2) => Interact(p, r1, mem.(rindex2 := r2), step, normal, d, o)
    else Interact(p, r1, mem, step, normal, d, o)
  }

  /** Lines 379-443: the surface type's treatment, then the proposals. A
      refracted photon takes the entered material's group velocity. */
  function Interact(p: SurfaceParams, r1: real, mem: Memory, step: Step, normal: Vec3, d: Draws, o: Optics): (c: Change)
    requires r1 > 0.0 && PositiveRoots(o.sqrt)
    requires p.kind == DielectricDielectric && Passes(p.finish) ==> mem.rindex2 > 0.0
    ensures c.kill ==> c.status in {Absorption, Detection}
    ensures !c.kill ==> c.deposit == 0.0
    ensures c.status != TPBMagic
    ensures p.kind in {DielectricMetal, DielectricDielectric} ==> Interaction(c.status)
    ensures c.status == FresnelRefraction ==> p.kind == DielectricDielectric
    ensures !(p.kind in {DielectricMetal, DielectricLUT, DielectricDielectric}) ==>
              c == Change(Undefined, false, 0.0, NoProposal, None, TrackVelocity, mem)
    ensures p.kind in {DielectricMetal, DielectricLUT, DielectricDielectric} ==>
              var out := Treat(p, r1, mem.rindex2, step, normal, d, o);
              && c.status == out.status && c.kill == out.kill && c.deposit == out.deposit && c.motion == out.motion
              && c.energy == None && c.memory == mem
    ensures c.status == FresnelRefraction ==>
              c.velocity == (if step.post.table.Some? && step.post.table.value.groupVel.Some?
                             then GroupVelocity(step.post.table.value.groupVel.value) else MissingGroupVelocity)
    ensures c.status != FresnelRefraction ==> c.velocity == TrackVelocity
    ensures p.kind in {DielectricMetal, DielectricLUT} ==> (c.kill <==> !BooleanRand(d.reflect, p.reflectivity))
    ensures p.kind == DielectricLUT && !c.kill ==> c.status == LutStatus(p.finish) && c.motion == LutSampled
  {
    if p.kind !in {DielectricMetal, DielectricLUT, DielectricDielectric} then
      Change(Undefined, false, 0.0, NoProposal, None, TrackVelocity, mem)
    else
      TreatByType(p, r1, mem.rindex2, step, normal, d, o);
      var out := Treat(p, r1, mem.rindex2, step, normal, d, o);
      var velocity :=
        if out.status != FresnelRefraction then TrackVelocity
        else if step.post.table.Some? && step.post.table.value.groupVel.Some? then
          GroupVelocity(step.post.table.value.groupVel.value)
        else MissingGroupVelocity;
      Change(out.status, out.kill, out.deposit, out.motion, None, velocity, mem)
  }

  /** The finishes for which a dielectric_dielectric surface runs the
      DielectricDielectric pass (every finish but the front-painted ones). */
  predicate Passes(f: Finish) {
    !f.PolishedFrontPainted? && !f.GroundFrontPainted?
  }

  /** The statuses the metal and dielectric treatments can end with. */
  predicate Interaction(s: Status) {
    s in {FresnelRefraction, FresnelReflection, TotalInternalReflection, LambertianReflection,
          LobeReflection, SpikeReflection, BackScattering, Absorption, Detection}
  }

  /** The treatment by surface type (lines 379-417). */
  function Treat(p: SurfaceParams, r1: real, r2: real, step: Step, normal: Vec3, d: Draws, o: Optics): (out: Outcome)
    requires r1 > 0.0 && PositiveRoots(o.sqrt)
    requires p.kind in {DielectricMetal, DielectricLUT, DielectricDielectric}
    requires p.kind == DielectricDielectric && Passes(p.finish) ==> r2 > 0.0
    ensures out.kill ==> out.status in {Absorption, Detection}
    ensures !out.kill ==> out.deposit == 0.0
    ensures out.status != TPBMagic
    ensures p.kind != DielectricLUT ==> Interaction(out.status)
    ensures out.status == FresnelRefraction ==> p.kind == DielectricDielectric
  {
    match p.kind
    case DielectricMetal => MetalFirstPass(p, step.energy, normal, d)
    case DielectricLUT =>
      LutStatusNotMagic(p.finish);
      LutFirstPass(p, step.energy, d)
    case DielectricDielectric => TreatDielectric(p, r1, r2, step, normal, d, o)
  }

  lemma LutStatusNotMagic(f: Finish)
    ensures LutStatus(f) != TPBMagic
  {
    LutStatusMatchesName(f);
  }

  /** What each surface type's treatment decides (lines 379-417): metal and
      look-up-table surfaces absorb exactly when the reflectivity draw fails;
      a metal one otherwise reflects as its model and finish say, a
      look-up-table one takes its finish's table status, and a
      dielectric_dielectric one is treated as TreatDielectric states. */
  lemma TreatByType(p: SurfaceParams, r1: real, r2: real, step: Step, normal: Vec3, d: Draws, o: Optics)
    requires r1 > 0.0 && PositiveRoots(o.sqrt)
    requires p.kind in {DielectricMetal, DielectricLUT, DielectricDielectric}
    requires p.kind == DielectricDielectric && Passes(p.finish) ==> r2 > 0.0
    ensures var out := Treat(p, r1, r2, step, normal, d, o);
            && (p.kind != DielectricDielectric ==> (out.kill <==> !BooleanRand(d.reflect, p.reflectivity)))
            && (p.kind == DielectricLUT && !out.kill ==> out.status == LutStatus(p.finish) && out.motion == LutSampled)
            && (p.kind == DielectricMetal && !out.kill && (p.model == Glisur || p.finish == Polished) ==>
                  out.status == (if p.finish == Ground then LobeReflection else SpikeReflection))
            && (p.kind == DielectricMetal && !out.kill && !(p.model == Glisur || p.finish == Polished) ==>
                  out.status == ChooseReflection(d.choose, p))
            && (p.kind == DielectricDielectric ==> out == TreatDielectric(p, r1, r2, step, normal, d, o))
  {
  }

  /** A dielectric_dielectric surface (lines 395-417): a back-painted one runs
      the pass directly; otherwise the reflectivity draw decides between
      absorption and a front-painted reflection or the pass. */
  function TreatDielectric(p: SurfaceParams, r1: real, r2: real, step: Step, normal: Vec3, d: Draws, o: Optics): (out: Outcome)
    requires r1 > 0.0 && PositiveRoots(o.sqrt)
    requires Passes(p.finish) ==> r2 > 0.0
    ensures out.kill ==> out.status in {Absorption, Detection}
    ensures !out.kill ==> out.deposit == 0.0
    ensures Interaction(out.status)
    ensures BackPainted(p.finish) ==> !out.kill
    ensures !BackPainted(p.finish) ==> (out.kill <==> !BooleanRand(d.reflect, p.reflectivity))
    ensures BooleanRand(d.reflect, p.reflectivity) && p.finish == PolishedFrontPainted ==>
              out.status == SpikeReflection && out.motion == Mirror(normal)
    ensures BooleanRand(d.reflect, p.reflectivity) && p.finish == GroundFrontPainted ==>
              out.status == LambertianReflection && out.motion == Diffuse
    ensures Passes(p.finish) && (BackPainted(p.finish) || BooleanRand(d.reflect, p.reflectivity)) ==>
              out == DielectricPass(p, r1, r2, step.momentum, step.polarization, normal, d, o)
  {
    if BackPainted(p.finish) then DielectricPass(p, r1, r2, step.momentum, step.polarization, normal, d, o)
      else if !BooleanRand(d.reflect, p.reflectivity) then DoAbsorption(p, step.energy, d.efficiency)
      else if p.finish == PolishedFrontPainted then DoReflection(Undefined, p.finish, normal, d.facet)
      else if p.finish == GroundFrontPainted then DoReflection(LambertianReflection, p.finish, normal, d.facet)
      else DielectricPass(p, r1, r2, step.momentum, step.polarization, normal, d, o)
  }

  /** The early exits do not look at materials, surfaces or draws. */
  lemma EarlyExitsIgnoreMaterials(cfg: MagicConfig, mem: Memory, step: Step, step': Step,
                                  d: Draws, d': Draws, o: Optics)
    requires PositiveRoots(o.sqrt) && PositiveIndices(mem, step) && PositiveIndices(mem, step')
    requires Magic(cfg, step, d.fcov) ==> SamplerHalts(d.cube)
    requires Magic(cfg, step', d'.fcov) ==> SamplerHalts(d'.cube)
    requires step'.atBoundary == step.atBoundary && step'.stepLength == step.stepLength
    requires !step.atBoundary || step.stepLength <= CarTolerance / 2.0
    ensures PostStepDoIt(cfg, mem, step, d, o) == PostStepDoIt(cfg, mem, step', d', o)
    ensures PostStepDoIt(cfg, mem, step, d, o).status in {NotAtBoundary, StepTooSmall}
  {
  }

  /** Without an optical surface the boundary is a polished glisur
      dielectric_dielectric one of reflectivity 1: for draws in [0, 1) the
      photon is never absorbed, and it dies only for a missing refractive
      index. */
  lemma NoSurfaceNoAbsorption(cfg: MagicConfig, mem: Memory, step: Step, d: Draws, o: Optics)
    requires PositiveRoots(o.sqrt) && PositiveIndices(mem, step)
    requires Magic(cfg, step, d.fcov) ==> SamplerHalts(d.cube)
    requires step.surface.None?
    requires 0.0 <= d.reflect < 1.0
    ensures var c := PostStepDoIt(cfg, mem, step, d, o);
            c.status !in {Absorption, Detection} && (c.kill ==> c.status == NoRINDEX)
  {
  }

  /** A photon crossing between two volumes of one material, with no optical
      surface, leaves with status SameMaterial and nothing proposed but the
      track's own velocity. */
  lemma SameMaterialPassesThrough(cfg: MagicConfig, mem: Memory, step: Step, d: Draws, o: Optics)
    requires PositiveRoots(o.sqrt) && PositiveIndices(mem, step)
    requires step.atBoundary && step.stepLength > CarTolerance / 2.0 && !Magic(cfg, step, d.fcov)
    requires step.surface.None? && RefractiveIndex(step.pre).Some?
    requires step.pre.handle == step.post.handle
    ensures PostStepDoIt(cfg, mem, step, d, o)
              == Change(SameMaterial, false, 0.0, NoProposal, None, TrackVelocity, mem)
  {
  }

  /** A pre-step material without a refractive index kills the photon, which
      deposits its momentum, whatever surface lies ahead. */
  lemma MissingIndexKills(cfg: MagicConfig, mem: Memory, step: Step, d: Draws, o: Optics)
    requires PositiveRoots(o.sqrt) && PositiveIndices(mem, step)
    requires step.atBoundary && step.stepLength > CarTolerance / 2.0 && !Magic(cfg, step, d.fcov)
    requires RefractiveIndex(step.pre).None?
    ensures PostStepDoIt(cfg, mem, step, d, o) == Killed(NoRINDEX, step, mem)
  {
  }

  /** A back-painted surface whose table has no refractive index kills the
      photon with status NoRINDEX, and the photon deposits its energy. */
  lemma BackPaintMissingIndexKills(cfg: MagicConfig, mem: Memory, step: Step, d: Draws, o: Optics)
    requires PositiveRoots(o.sqrt) && PositiveIndices(mem, step)
    requires step.atBoundary && step.stepLength > CarTolerance / 2.0 && !Magic(cfg, step, d.fcov)
    requires RefractiveIndex(step.pre).Some? && BackPaintLacksIndex(step)
    ensures PostStepDoIt(cfg, mem, step, d, o) == Killed(NoRINDEX, step, mem)
  {
  }

  /** A back-painted surface without any property table kills the photon,
      which deposits its energy; the status is left Undefined. */
  lemma BackPaintWithoutTableKills(cfg: MagicConfig, mem: Memory, step: Step, d: Draws, o: Optics)
    requires PositiveRoots(o.sqrt) && PositiveIndices(mem, step)
    requires step.atBoundary && step.stepLength > CarTolerance / 2.0 && !Magic(cfg, step, d.fcov)
    requires RefractiveIndex(step.pre).Some?
    requires step.surface.Some? && BackPainted(step.surface.value.finish) && step.surface.value.table.None?
    ensures PostStepDoIt(cfg, mem, step, d, o) == Killed(Undefined, step, mem)
  {
  }

  /** Crossing a polished or ground dielectric_dielectric boundary into another
      material without a refractive index kills the photon with status
      NoRINDEX, and the photon deposits its energy. */
  lemma PostMaterialMissingIndexKills(cfg: MagicConfig, mem: Memory, step: Step, d: Draws, o: Optics)
    requires PositiveRoots(o.sqrt) && PositiveIndices(mem, step)
    requires step.atBoundary && step.stepLength > CarTolerance / 2.0 && !Magic(cfg, step, d.fcov)
    requires RefractiveIndex(step.pre).Some? && PostLacksIndex(step)
    ensures var c := PostStepDoIt(cfg, mem, step, d, o);
            c.status == NoRINDEX && c.kill && c.deposit == step.energy && c.motion == NoProposal
  {
  }

  /** A surface of a type the process does not handle ends the step with
      status Undefined: the photon is not killed, no momentum or polarization
      change is proposed, and the track's velocity is proposed. */
  lemma UnknownSurfaceTypeUndefined(cfg: MagicConfig, mem: Memory, step: Step, d: Draws, o: Optics)
    requires PositiveRoots(o.sqrt) && PositiveIndices(mem, step)
    requires step.atBoundary && step.stepLength > CarTolerance / 2.0 && !Magic(cfg, step, d.fcov)
    requires RefractiveIndex(step.pre).Some?
    requires step.surface.Some? && step.surface.value.kind in {Firsov, XRay}
    requires !BackPainted(step.surface.value.finish)
    ensures var c := PostStepDoIt(cfg, mem, step, d, o);
            c.status == Undefined && !c.kill && c.deposit == 0.0 && c.motion == NoProposal
            && c.velocity == TrackVelocity
  {
  }

  /** A dielectric_metal surface end to end: the photon is absorbed or
      detected, and killed, exactly when the draw fails against the surface's
      reflectivity; otherwise it is reflected in one of the four ways and keeps
      the track's velocity. */
  lemma MetalSurfaceOutcome(cfg: MagicConfig, mem: Memory, step: Step, d: Draws, o: Optics)
    requires PositiveRoots(o.sqrt) && PositiveIndices(mem, step)
    requires step.atBoundary && step.stepLength > CarTolerance / 2.0 && !Magic(cfg, step, d.fcov)
    requires RefractiveIndex(step.pre).Some?
    requires step.surface.Some? && step.surface.value.kind == DielectricMetal
    requires !BackPainted(step.surface.value.finish)
    ensures var c := PostStepDoIt(cfg, mem, step, d, o);
            && (c.kill <==> !BooleanRand(d.reflect, Reflectivity(step.surface.value, o)))
            && (c.kill ==> c.status in {Absorption, Detection})
            && (!c.kill ==> c.deposit == 0.0
                            && c.status in {SpikeReflection, LobeReflection, BackScattering, LambertianReflection})
            && c.velocity == TrackVelocity
  {
  }

  /** A dielectric_LUT surface end to end: killed exactly when the draw fails
      against the surface's reflectivity; otherwise the finish's table status,
      with the direction sampled from the table. */
  lemma LutSurfaceOutcome(cfg: MagicConfig, mem: Memory, step: Step, d: Draws, o: Optics)
    requires PositiveRoots(o.sqrt) && PositiveIndices(mem, step)
    requires step.atBoundary && step.stepLength > CarTolerance / 2.0 && !Magic(cfg, step, d.fcov)
    requires RefractiveIndex(step.pre).Some?
    requires step.surface.Some? && step.surface.value.kind == DielectricLUT
    requires !BackPainted(step.surface.value.finish)
    ensures var c := PostStepDoIt(cfg, mem, step, d, o);
            && (c.kill <==> !BooleanRand(d.reflect, Reflectivity(step.surface.value, o)))
            && (!c.kill ==> c.status == LutStatus(step.surface.value.finish) && c.motion == LutSampled)
            && c.velocity == TrackVelocity
  {
    var r1 := RefractiveIndex(step.pre).value;
    assert PostStepDoIt(cfg, mem, step, d, o)
             == WithSurface(r1, mem, step, GlobalNormal(step.momentum, step.exitNormal), d, o);
  }

  /** A polished or ground dielectric_dielectric boundary (or none at all)
      into a different material with a refractive index, end to end: the
      surface's table supplies the reflectivity, EFFICIENCY, TRANSMITTANCE
      and unified probabilities, the second index is the entered material's,
      the photon is absorbed exactly when the draw fails against the
      reflectivity, and otherwise it makes the DielectricDielectric pass
      between the two materials' indices. The probabilities read and the
      second index stay in memory for later steps. */
  lemma DielectricSurfaceOutcome(cfg: MagicConfig, mem: Memory, step: Step, d: Draws, o: Optics)
    requires PositiveRoots(o.sqrt) && PositiveIndices(mem, step)
    requires step.atBoundary && step.stepLength > CarTolerance / 2.0 && !Magic(cfg, step, d.fcov)
    requires RefractiveIndex(step.pre).Some? && RefractiveIndex(step.post).Some?
    requires step.pre.handle != step.post.handle
    requires step.surface.None?
             || (step.surface.value.kind == DielectricDielectric && PolishedOrGround(step.surface.value.finish))
    ensures var c := PostStepDoIt(cfg, mem, step, d, o);
            var r1 := RefractiveIndex(step.pre).value;
            var r2 := RefractiveIndex(step.post).value;
            var p := SurfaceRead(step.surface, mem, o);
            var pass := DielectricPass(p, r1, r2, step.momentum, step.polarization,
                                       GlobalNormal(step.momentum, step.exitNormal), d, o);
            && (c.kill <==> !BooleanRand(d.reflect, p.reflectivity))
            && (!c.kill ==> c.status == pass.status && c.motion == pass.motion && c.deposit == 0.0)
            && c.memory == Memory(p.probSpike, p.probLobe, p.probBack, r2)
  {
    var r1 := RefractiveIndex(step.pre).value;
    var r2 := RefractiveIndex(step.post).value;
    var normal := GlobalNormal(step.momentum, step.exitNormal);
    var p := SurfaceRead(step.surface, mem, o);
    var m := ReadMemory(step.surface, mem);
    assert PostStepDoIt(cfg, mem, step, d, o) == WithSurface(r1, mem, step, normal, d, o);
    assert WithSurface(r1, mem, step, normal, d, o) == Interact(p, r1, m.(rindex2 := r2), step, normal, d, o);
    TreatByType(p, r1, r2, step, normal, d, o);
  }

  /** With the constructor's settings the re-emission probability is 0, so
      only a first draw of exactly 0 can trigger it. */
  lemma DefaultRarelyReemits(mem: Memory, step: Step, d: Draws, o: Optics)
    requires PositiveRoots(o.sqrt) && PositiveIndices(mem, step)
    requires Magic(DefaultMagic, step, d.fcov) ==> SamplerHalts(d.cube)
    requires d.fcov > 0.0
    ensures PostStepDoIt(DefaultMagic, mem, step, d, o).status != TPBMagic
  {
  }

  /** A 128 nm photon entering the fiber material from liquid argon with
      re-emission probability 1 is re-emitted at 450 nm in the direction of
      the first candidate inside the unit ball. */
  lemma ReemissionScenario(mem: Memory, o: Optics, normal: Vec3, facet: Vec3)
    requires PositiveRoots(o.sqrt)
    ensures var cfg := DefaultMagic.(prob := 1.0);
            var larMaterial := Material(1, "LiquidArgon", None);
            var fiberMaterial := Material(2, "LiquidArgonFiber", None);
            var step := Step(true, 1.0, larMaterial, fiberMaterial, Lambda / (128.0 * Nm),
                             Vec3(0.0, 0.0, 1.0), Vec3(1.0, 0.0, 0.0), normal, None);
            var cube := [Vec3(0.9, 0.9, 0.9), Vec3(0.75, 0.5, 0.5)];
            var d := Draws(0.0, 0.0, 0.0, 0.0, 0.0, facet, cube);
            PositiveIndices(mem, step) && Magic(cfg, step, d.fcov) && SamplerHalts(cube)
            && PostStepDoIt(cfg, mem, step, d, o)
                 == Change(TPBMagic, false, 0.0, Isotropic(Vec3(0.5, 0.0, 0.0)),
                           Some(SecondaryEnergy), NotProposed, mem)
  {
    var cfg := DefaultMagic.(prob := 1.0);
    var cube := [Vec3(0.9, 0.9, 0.9), Vec3(0.75, 0.5, 0.5)];
    assert Lambda / (Lambda / (128.0 * Nm)) == 128.0 * Nm;
    assert !Accepted(cube[0]);
    assert Accepted(cube[1]);
    assert FirstAccepted(cube) == 1;
  }
}

=== FILE: dielectric.dfy ===
/** The outcome selection of the optical boundary process once the surface is
    known: Snell's law and the total-internal-reflection test, the choice of
    transmission coefficient and the Fresnel draw (one pass of
    DielectricDielectric), the first pass of DielectricMetal, the status of
    DielectricLUT, and the small helpers they share (the Bernoulli draw,
    absorption, reflection, and the unified model's choice of reflection).

    Random draws are explicit inputs, one uniform value per decision point, so
    every outcome is a function of its inputs. Vector optics is not computed:
    the outcome names the geometric transform (mirror about a normal, refract,
    reverse, diffuse) instead, and the square root and the split of the
    polarization into perpendicular and parallel parts are parameters. */
module Dielectric {
  import opened OpticalTypes

  /** The surface tolerance of the geometry (1e-9 mm, in millimetres). */
  const CarTolerance: real := 0.000000001

  /** The uniform values drawn at each decision point of one boundary step. */
  datatype Draws = Draws(
    fcov: real,          // drawn first, compared with the re-emission probability
    reflect: real,       // Bernoulli draw against the reflectivity
    efficiency: real,    // Bernoulli draw against the detection efficiency
    choose: real,        // the unified model's choice of reflection
    trans: real,         // Bernoulli draw against the transmission coefficient
    facet: Vec3,         // the facet normal sampled for a rough surface
    cube: seq<Vec3>)     // uniform triples for the isotropic re-emission direction

  /** The numerics the decision needs but does not model: the square root, the
      split of the polarization into its components perpendicular and parallel
      to the plane of incidence (for momentum, polarization, facet normal),
      and the reflectivity computed from a complex refractive index. */
  datatype Optics = Optics(
    sqrt: real -> real,
    split: (Vec3, Vec3, Vec3) -> (real, real),
    complexReflectivity: real)

  /** The one property of the square root the decision relies on. */
  ghost predicate PositiveRoots(sqrt: real -> real) {
    forall x: real :: x > 0.0 ==> sqrt(x) > 0.0
  }

  /** The surface parameters in force for this step. */
  datatype SurfaceParams = SurfaceParams(
    kind: SurfaceType, model: SurfaceModel, finish: Finish,
    reflectivity: real, efficiency: real, transmittance: real,
    probSpike: real, probLobe: real, probBack: real)

  /** The new direction the process proposes, as the transform that yields it. */
  datatype Motion =
    | NoProposal              // no momentum or polarization proposed: the early returns
    | Unchanged               // old momentum and polarization kept
    | Mirror(normal: Vec3)    // specular reflection about `normal`
    | Diffuse                 // Lambertian reflection about the global normal
    | Reversed                // back-scattering: momentum and polarization negated
    | Refracted(facet: Vec3)  // Snell-law refraction through `facet`
    | LutSampled              // direction drawn from the look-up table
    | Isotropic(dir: Vec3)    // accepted candidate of the re-emission sampler

  datatype Outcome = Outcome(status: Status, motion: Motion, kill: bool, deposit: real)

  function Abs(x: real): real {
    if x < 0.0 then -x else x
  }

  /** G4BooleanRand: true with probability `p`, for a uniform draw `u`. */
  predicate BooleanRand(u: real, p: real) {
    u < p
  }

  /** DoAbsorption: the photon is killed; with probability `efficiency` it is
      detected and deposits its momentum, otherwise it deposits nothing. */
  function DoAbsorption(p: SurfaceParams, momentum: real, u: real): (o: Outcome)
    ensures o.kill && o.motion == Unchanged
    ensures o.status == Detection || o.status == Absorption
    ensures o.status == Detection <==> BooleanRand(u, p.efficiency)
    ensures o.deposit == (if o.status == Detection then momentum else 0.0)
  {
    if BooleanRand(u, p.efficiency) then Outcome(Detection, Unchanged, true, momentum)
    else Outcome(Absorption, Unchanged, true, 0.0)
  }

  /** DoReflection: a Lambertian reflection stays Lambertian; otherwise a ground
      finish reflects about the sampled facet (lobe), any other about the
      global normal (spike). */
  function DoReflection(status: Status, finish: Finish, normal: Vec3, facet: Vec3): (o: Outcome)
    ensures !o.kill && o.deposit == 0.0
    ensures o.status in {LambertianReflection, LobeReflection, SpikeReflection}
    ensures o.status == LambertianReflection <==> status == LambertianReflection
    ensures o.status == LobeReflection ==> finish == Ground
    ensures status != LambertianReflection ==>
              o.status == (if finish == Ground then LobeReflection else SpikeReflection)
  {
    if status == LambertianReflection then Outcome(LambertianReflection, Diffuse, false, 0.0)
    else if finish == Ground then Outcome(LobeReflection, Mirror(facet), false, 0.0)
    else Outcome(SpikeReflection, Mirror(normal), false, 0.0)
  }

  /** ChooseReflection: the unified model splits [0, 1) into spike, lobe,
      back-scatter and Lambertian bands of the given widths. */
  function ChooseReflection(u: real, p: SurfaceParams): (s: Status)
    ensures s in {SpikeReflection, LobeReflection, BackScattering, LambertianReflection}
    ensures s == SpikeReflection <==> 0.0 <= u < p.probSpike
  {
    if 0.0 <= u < p.probSpike then SpikeReflection
    else if p.probSpike <= u <= p.probSpike + p.probLobe then LobeReflection
    else if p.probSpike + p.probLobe < u < p.probSpike + p.probLobe + p.probBack then BackScattering
    else LambertianReflection
  }

  /** The transform of a reflection whose kind is already chosen. */
  function Scatter(s: Status, normal: Vec3, facet: Vec3): (o: Outcome)
    ensures o.status == s && !o.kill && o.deposit == 0.0
  {
    if s == LambertianReflection then Outcome(s, Diffuse, false, 0.0)
    else if s == BackScattering then Outcome(s, Reversed, false, 0.0)
    else if s == SpikeReflection then Outcome(s, Mirror(normal), false, 0.0)
    else Outcome(s, Mirror(facet), false, 0.0)
  }

  /** The status a reflection inside DielectricDielectric ends with. */
  function ReflectionStatus(p: SurfaceParams, base: Status, u: real): (s: Status)
    ensures !(p.model == Unified && p.finish != Polished) ==> s == base
    ensures p.model == Unified && p.finish != Polished ==> s == ChooseReflection(u, p)
  {
    if p.model == Unified && p.finish != Polished then ChooseReflection(u, p) else base
  }

  /** Sine of the angle of incidence and of refraction (lines 830-838):
      near-normal incidence gives 0 for both, otherwise Snell's law
      `sint1 * n1 == sint2 * n2`. */
  function Snell(cost1: real, r1: real, r2: real, sqrt: real -> real): (s: (real, real))
    requires r1 > 0.0 && r2 > 0.0
    ensures Abs(cost1) >= 1.0 - CarTolerance ==> s == (0.0, 0.0)
    ensures Abs(cost1) < 1.0 - CarTolerance ==> s.0 * r1 == s.1 * r2
    ensures PositiveRoots(sqrt) ==> (s.0 > 0.0 <==> Abs(cost1) < 1.0 - CarTolerance)
    ensures PositiveRoots(sqrt) ==> s.0 >= 0.0 && s.1 >= 0.0
  {
    if Abs(cost1) < 1.0 - CarTolerance then
      var sint1 := sqrt(1.0 - cost1 * cost1);
      assert 1.0 - cost1 * cost1 > 0.0 by { SquareBelowOne(cost1); }
      (sint1, sint1 * r1 / r2)
    else (0.0, 0.0)
  }

  lemma SquareBelowOne(c: real)
    requires Abs(c) < 1.0 - CarTolerance
    ensures c * c < 1.0
  {
    var a := Abs(c);
    assert a * a == c * c;
    assert a * a <= a * 1.0;
  }

  /** The cosine of the refraction angle, with the sign of the incidence cosine. */
  function CosT2(cost1: real, sint2: real, sqrt: real -> real): (c: real)
    requires PositiveRoots(sqrt)
    requires 0.0 <= sint2 < 1.0
    ensures Oriented(cost1, c)
  {
    assert 1.0 - sint2 * sint2 > 0.0 by { assert sint2 * sint2 <= sint2; }
    if cost1 > 0.0 then sqrt(1.0 - sint2 * sint2) else -sqrt(1.0 - sint2 * sint2)
  }

  /** The refraction cosine is nonzero and on the incidence cosine's side. */
  predicate Oriented(cost1: real, cost2: real) {
    if cost1 > 0.0 then cost2 > 0.0 else cost2 < 0.0
  }

  /** The transmission coefficient (lines 898-908): the surface transmittance
      when positive, otherwise the Fresnel ratio s2/s1 when cost1 is nonzero,
      otherwise 0. */
  function TransCoeff(transmittance: real, r1: real, r2: real, cost1: real, cost2: real,
                      e1perp: real, e1parl: real): (t: real)
    requires r1 > 0.0 && r2 > 0.0 && Oriented(cost1, cost2)
    ensures transmittance > 0.0 ==> t == transmittance
    ensures transmittance <= 0.0 && cost1 == 0.0 ==> t == 0.0
    ensures transmittance <= 0.0 && cost1 != 0.0 ==> t == FresnelRatio(r1, r2, cost1, cost2, e1perp, e1parl)
  {
    if transmittance > 0.0 then transmittance
    else if cost1 != 0.0 then FresnelRatio(r1, r2, cost1, cost2, e1perp, e1parl)
    else 0.0
  }

  /** s2/s1 for refractive indices `r1`, `r2` and cosines `cost1`, `cost2`. */
  function FresnelRatio(r1: real, r2: real, cost1: real, cost2: real, e1perp: real, e1parl: real): real
    requires r1 > 0.0 && r2 > 0.0 && Oriented(cost1, cost2) && cost1 != 0.0
  {
    FresnelSigns(r1, r2, cost1, cost2);
    Transmitted(r1 * cost1, r2 * cost2, r2 * cost1, r1 * cost2, e1perp, e1parl)
  }

  /** s2/s1 over the products it is made of: `s1 == n1 cos1`, `b == n2 cos2`,
      and the parallel denominator `p + q == n2 cos1 + n1 cos2`. */
  function Transmitted(s1: real, b: real, p: real, q: real, e1perp: real, e1parl: real): real
    requires s1 != 0.0 && s1 + b != 0.0 && p + q != 0.0
  {
    var e2perp := 2.0 * s1 * e1perp / (s1 + b);
    var e2parl := 2.0 * s1 * e1parl / (p + q);
    var s2 := b * (e2perp * e2perp + e2parl * e2parl);
    s2 / s1
  }

  /** The four products have the signs the bound needs: n1 cos1 and n2 cos2
      agree in sign, and so do n2 cos1 and n1 cos2, with equal products. */
  lemma FresnelSigns(r1: real, r2: real, cost1: real, cost2: real)
    requires r1 > 0.0 && r2 > 0.0 && Oriented(cost1, cost2) && cost1 != 0.0
    ensures (r1 * cost1) * (r2 * cost2) > 0.0
    ensures (r2 * cost1) * (r1 * cost2) == (r1 * cost1) * (r2 * cost2)
    ensures r1 * cost1 != 0.0
    ensures r1 * cost1 + r2 * cost2 != 0.0 && r2 * cost1 + r1 * cost2 != 0.0
  {
    if cost1 > 0.0 {
      PositiveProduct(r1, cost1);
      PositiveProduct(r2, cost2);
      PositiveProduct(r2, cost1);
      PositiveProduct(r1, cost2);
      PositiveProduct(r1 * cost1, r2 * cost2);
    } else {
      PositiveProduct(r1, -cost1);
      PositiveProduct(r2, -cost2);
      PositiveProduct(r2, -cost1);
      PositiveProduct(r1, -cost2);
      PositiveProduct(r1 * -cost1, r2 * -cost2);
    }
  }

  lemma PositiveProduct(x: real, y: real)
    requires x > 0.0 && y > 0.0
    ensures x * y > 0.0
  {
  }

  lemma SquareNonNegative(x: real)
    ensures x * x >= 0.0
  {
    if x < 0.0 {
      PositiveProduct(-x, -x);
    }
  }

  lemma Cancel(x: real, y: real, c: real)
    requires c != 0.0 && x * c == y * c
    ensures x == y
  {
    assert (x - y) * c == 0.0;
  }

  /** One polarization's share of s2/s1, `b X^2 / s1` for the transmitted
      amplitude `X == 2 s1 e / g`, lies between 0 and the incident `e^2`
      whenever `4 s1 b <= g^2`. */
  lemma ShareBounded(s1: real, b: real, g: real, e: real, x: real, y: real)
    requires s1 != 0.0 && g != 0.0 && s1 * b > 0.0
    requires 4.0 * (s1 * b) <= g * g
    requires x * g == 2.0 * s1 * e
    requires y * s1 == b * (x * x)
    ensures 0.0 <= y <= e * e
  {
    var gg, ee := g * g, e * e;
    SquareNonNegative(e);
    assert gg > 0.0 by { SquareNonNegative(g); }
    assert (x * x) * gg == (x * g) * (x * g);
    assert (x * g) * (x * g) == 4.0 * (s1 * s1) * ee;
    assert (y * gg) * s1 == (b * (x * x)) * gg;
    assert (y * gg) * s1 == (4.0 * (s1 * b) * ee) * s1;
    Cancel(y * gg, 4.0 * (s1 * b) * ee, s1);
    assert 4.0 * (s1 * b) * ee <= gg * ee by {
      assert (gg - 4.0 * (s1 * b)) * ee >= 0.0 by {
        NonNegativeProduct(gg - 4.0 * (s1 * b), ee);
      }
    }
    assert y * gg >= 0.0 by {
      NonNegativeProduct(4.0 * (s1 * b), ee);
    }
    if y < 0.0 {
      PositiveProduct(-y, gg);
      assert false;
    }
    if y > ee {
      PositiveProduct(y - ee, gg);
      assert false;
    }
  }

  lemma NonNegativeProduct(x: real, y: real)
    requires x >= 0.0 && y >= 0.0
    ensures x * y >= 0.0
  {
    if x > 0.0 && y > 0.0 {
      PositiveProduct(x, y);
    }
  }

  /** `4ab <= (a + b)^2`, the arithmetic-geometric mean inequality. */
  lemma ArithmeticGeometricMean(a: real, b: real)
    ensures 4.0 * (a * b) <= (a + b) * (a + b)
  {
    SquareNonNegative(a - b);
    assert (a + b) * (a + b) - 4.0 * (a * b) == (a - b) * (a - b);
  }

  /** The Fresnel transmission never exceeds the incident intensity
      E1_perp^2 + E1_parl^2 and is never negative: for a unit polarization
      the coefficient is a probability. */
  lemma FresnelRatioBounded(r1: real, r2: real, cost1: real, cost2: real, e1perp: real, e1parl: real)
    requires r1 > 0.0 && r2 > 0.0 && Oriented(cost1, cost2) && cost1 != 0.0
    ensures 0.0 <= FresnelRatio(r1, r2, cost1, cost2, e1perp, e1parl) <= e1perp * e1perp + e1parl * e1parl
  {
    FresnelSigns(r1, r2, cost1, cost2);
    TransmittedBounded(r1 * cost1, r2 * cost2, r2 * cost1, r1 * cost2, e1perp, e1parl);
  }

  lemma TransmittedBounded(s1: real, b: real, p: real, q: real, e1perp: real, e1parl: real)
    requires s1 * b > 0.0 && p * q == s1 * b
    requires s1 != 0.0 && s1 + b != 0.0 && p + q != 0.0
    ensures 0.0 <= Transmitted(s1, b, p, q, e1perp, e1parl) <= e1perp * e1perp + e1parl * e1parl
  {
    var e2perp := 2.0 * s1 * e1perp / (s1 + b);
    var e2parl := 2.0 * s1 * e1parl / (p + q);
    var pp, pl := e2perp * e2perp, e2parl * e2parl;
    var t := Transmitted(s1, b, p, q, e1perp, e1parl);
    TransmittedTimesS1(s1, b, p, q, e1perp, e1parl);
    var yperp := b * pp / s1;
    var yparl := b * pl / s1;
    QuotientTimesDivisor(b * pp, s1);
    QuotientTimesDivisor(b * pl, s1);
    ArithmeticGeometricMean(s1, b);
    ArithmeticGeometricMean(p, q);
    QuotientTimesDivisor(2.0 * s1 * e1perp, s1 + b);
    QuotientTimesDivisor(2.0 * s1 * e1parl, p + q);
    ShareBounded(s1, b, s1 + b, e1perp, e2perp, yperp);
    ShareBounded(s1, b, p + q, e1parl, e2parl, yparl);
    SumOfShares(t, yperp, yparl, s1, b * pp, b * pl);
  }

  lemma TransmittedTimesS1(s1: real, b: real, p: real, q: real, e1perp: real, e1parl: real)
    requires s1 != 0.0 && s1 + b != 0.0 && p + q != 0.0
    ensures var e2perp := 2.0 * s1 * e1perp / (s1 + b);
            var e2parl := 2.0 * s1 * e1parl / (p + q);
            Transmitted(s1, b, p, q, e1perp, e1parl) * s1
              == b * (e2perp * e2perp) + b * (e2parl * e2parl)
  {
    var e2perp := 2.0 * s1 * e1perp / (s1 + b);
    var e2parl := 2.0 * s1 * e1parl / (p + q);
    var n := b * (e2perp * e2perp + e2parl * e2parl);
    assert Transmitted(s1, b, p, q, e1perp, e1parl) == n / s1;
    QuotientTimesDivisor(n, s1);
  }

  lemma SumOfShares(t: real, y1: real, y2: real, s1: real, p: real, q: real)
    requires s1 != 0.0
    requires t * s1 == p + q && y1 * s1 == p && y2 * s1 == q
    ensures t == y1 + y2
  {
    var ysum := y1 + y2;
    assert ysum * s1 == y1 * s1 + y2 * s1;
    Cancel(t, ysum, s1);
  }

  lemma QuotientTimesDivisor(n: real, d: real)
    requires d != 0.0
    ensures (n / d) * d == n
  {
  }

  /** The facet normal one pass of DielectricDielectric uses: the global normal
      on a polished surface, the sampled facet otherwise (lines 819-825). */
  function Facet(p: SurfaceParams, normal: Vec3, d: Draws): (f: Vec3)
    ensures p.finish == Polished ==> f == normal
  {
    if p.finish == Polished then normal else d.facet
  }

  /** The cosine of the angle of incidence on the facet. */
  function CosIncidence(p: SurfaceParams, momentum: Vec3, normal: Vec3, d: Draws): real {
    -Dot(momentum, Facet(p, normal, d))
  }

  /** The sine of the refraction angle this pass computes. */
  function RefractedSine(p: SurfaceParams, r1: real, r2: real, momentum: Vec3, normal: Vec3,
                         d: Draws, o: Optics): real
    requires r1 > 0.0 && r2 > 0.0
  {
    Snell(CosIncidence(p, momentum, normal, d), r1, r2, o.sqrt).1
  }

  /** The transmission coefficient this pass draws against, when the refraction
      sine is below 1. */
  function PassTransCoeff(p: SurfaceParams, r1: real, r2: real, momentum: Vec3, polarization: Vec3,
                          normal: Vec3, d: Draws, o: Optics): real
    requires r1 > 0.0 && r2 > 0.0 && PositiveRoots(o.sqrt)
    requires RefractedSine(p, r1, r2, momentum, normal, d, o) < 1.0
  {
    var facet := Facet(p, normal, d);
    var cost1 := CosIncidence(p, momentum, normal, d);
    var (sint1, sint2) := Snell(cost1, r1, r2, o.sqrt);
    var cost2 := CosT2(cost1, sint2, o.sqrt);
    var (e1perp, e1parl) := if sint1 > 0.0 then o.split(momentum, polarization, facet) else (0.0, 1.0);
    TransCoeff(p.transmittance, r1, r2, cost1, cost2, e1perp, e1parl)
  }

  /** One pass of DielectricDielectric (lines 818-987): total internal reflection
      when Snell's law gives a refraction sine of at least 1; otherwise refraction
      with the probability of the transmission coefficient, else Fresnel
      reflection. A reflection on a rough surface under the unified model is
      re-chosen by ChooseReflection. */
  function DielectricPass(p: SurfaceParams, r1: real, r2: real, momentum: Vec3, polarization: Vec3,
                          normal: Vec3, d: Draws, o: Optics): (out: Outcome)
    requires r1 > 0.0 && r2 > 0.0 && PositiveRoots(o.sqrt)
    ensures !out.kill && out.deposit == 0.0
    ensures RefractedSine(p, r1, r2, momentum, normal, d, o) >= 1.0 ==>
              out.status == ReflectionStatus(p, TotalInternalReflection, d.choose)
    ensures RefractedSine(p, r1, r2, momentum, normal, d, o) < 1.0 ==>
              (out.status == FresnelRefraction <==>
                 BooleanRand(d.trans, PassTransCoeff(p, r1, r2, momentum, polarization, normal, d, o)))
    ensures RefractedSine(p, r1, r2, momentum, normal, d, o) < 1.0 && out.status != FresnelRefraction ==>
              out.status == ReflectionStatus(p, FresnelReflection, d.choose)
    ensures out.status != FresnelRefraction && !(p.model == Unified && p.finish != Polished) ==>
              out.status == (if RefractedSine(p, r1, r2, momentum, normal, d, o) >= 1.0
                             then TotalInternalReflection else FresnelReflection)
    ensures out.status != FresnelRefraction && p.model == Unified && p.finish != Polished ==>
              out.status == ChooseReflection(d.choose, p)
  {
    var facet := Facet(p, normal, d);
    var cost1 := CosIncidence(p, momentum, normal, d);
    var (sint1, sint2) := Snell(cost1, r1, r2, o.sqrt);
    if sint2 >= 1.0 then
      Scatter(ReflectionStatus(p, TotalInternalReflection, d.choose), normal, facet)
    else if !BooleanRand(d.trans, PassTransCoeff(p, r1, r2, momentum, polarization, normal, d, o)) then
      Scatter(ReflectionStatus(p, FresnelReflection, d.choose), normal, facet)
    else
      Outcome(FresnelRefraction, if sint1 > 0.0 then Refracted(facet) else Unchanged, false, 0.0)
  }

  /** The statuses one pass can end with. */
  lemma DielectricPassStatuses(p: SurfaceParams, r1: real, r2: real, momentum: Vec3, polarization: Vec3,
                               normal: Vec3, d: Draws, o: Optics)
    requires r1 > 0.0 && r2 > 0.0 && PositiveRoots(o.sqrt)
    ensures DielectricPass(p, r1, r2, momentum, polarization, normal, d, o).status in
              {FresnelRefraction, FresnelReflection, TotalInternalReflection,
               LambertianReflection, LobeReflection, SpikeReflection, BackScattering}
  {
  }

  /** A photon whose refraction sine reaches 1 is never refracted; outside the
      unified model's rough surfaces it is totally internally reflected. */
  lemma TotalInternalReflectionNeverRefracts(p: SurfaceParams, r1: real, r2: real, momentum: Vec3,
                                             polarization: Vec3, normal: Vec3, d: Draws, o: Optics)
    requires r1 > 0.0 && r2 > 0.0 && PositiveRoots(o.sqrt)
    requires RefractedSine(p, r1, r2, momentum, normal, d, o) >= 1.0
    ensures var out := DielectricPass(p, r1, r2, momentum, polarization, normal, d, o);
            out.status != FresnelRefraction
            && (!(p.model == Unified && p.finish != Polished) ==> out.status == TotalInternalReflection)
  {
  }

  /** Going from a denser to a thinner medium, an incidence sine of at least
      n2/n1 is total internal reflection: the critical angle. */
  lemma CriticalAngle(cost1: real, r1: real, r2: real, sqrt: real -> real)
    requires r1 > 0.0 && r2 > 0.0 && PositiveRoots(sqrt)
    requires Abs(cost1) < 1.0 - CarTolerance
    ensures Snell(cost1, r1, r2, sqrt).1 >= 1.0 <==> Snell(cost1, r1, r2, sqrt).0 * r1 >= r2
  {
    var (s1, s2) := Snell(cost1, r1, r2, sqrt);
    assert s2 * r2 == s1 * r1;
    if s2 >= 1.0 {
      MonotoneProduct(1.0, s2, r2);
    } else {
      MonotoneProduct(s2, 1.0, r2);
      assert s2 * r2 < r2 by {
        assert (1.0 - s2) * r2 > 0.0 by { PositiveProduct(1.0 - s2, r2); }
      }
    }
  }

  lemma MonotoneProduct(x: real, y: real, c: real)
    requires x <= y && c > 0.0
    ensures x * c <= y * c
  {
    if x < y {
      PositiveProduct(y - x, c);
    }
  }

  /** The transmission coefficient is a probability whenever the surface
      transmittance is at most 1 and the polarization is a unit vector split
      into its two components: a draw below it refracts with that chance. */
  lemma TransCoeffIsProbability(transmittance: real, r1: real, r2: real, cost1: real, cost2: real,
                                e1perp: real, e1parl: real)
    requires r1 > 0.0 && r2 > 0.0 && Oriented(cost1, cost2)
    requires transmittance <= 1.0
    requires e1perp * e1perp + e1parl * e1parl == 1.0
    ensures 0.0 <= TransCoeff(transmittance, r1, r2, cost1, cost2, e1perp, e1parl) <= 1.0
  {
    if transmittance <= 0.0 && cost1 != 0.0 {
      FresnelRatioBounded(r1, r2, cost1, cost2, e1perp, e1parl);
    }
  }

  /** At normal incidence on an interface between equal refractive indices the
      transmission coefficient is 1: with no transmittance given, every draw in
      [0, 1) refracts, and the photon goes straight on. */
  lemma MatchedIndexNormalIncidence(p: SurfaceParams, r: real, momentum: Vec3, polarization: Vec3,
                                    normal: Vec3, d: Draws, o: Optics)
    requires r > 0.0 && PositiveRoots(o.sqrt) && o.sqrt(1.0) == 1.0
    requires p.finish == Polished && p.transmittance <= 0.0
    requires Dot(momentum, normal) == -1.0
    requires 0.0 <= d.trans < 1.0
    ensures DielectricPass(p, r, r, momentum, polarization, normal, d, o)
              == Outcome(FresnelRefraction, Unchanged, false, 0.0)
  {
    assert CosIncidence(p, momentum, normal, d) == 1.0;
    assert Snell(1.0, r, r, o.sqrt) == (0.0, 0.0);
    assert CosT2(1.0, 0.0, o.sqrt) == 1.0;
    var t := PassTransCoeff(p, r, r, momentum, polarization, normal, d, o);
    assert t == FresnelRatio(r, r, 1.0, 1.0, 0.0, 1.0);
    MatchedIndexRatio(r);
  }

  lemma MatchedIndexRatio(r: real)
    requires r > 0.0
    ensures FresnelRatio(r, r, 1.0, 1.0, 0.0, 1.0) == 1.0
  {
    FresnelSigns(r, r, 1.0, 1.0);
    var g := r * 1.0 + r * 1.0;
    var e2parl := 2.0 * (r * 1.0) * 1.0 / g;
    assert e2parl == 1.0;
    TransmittedTimesS1(r * 1.0, r * 1.0, r * 1.0, r * 1.0, 0.0, 1.0);
  }

  /** The unified model's bands: for nonnegative spike, lobe and back-scatter
      probabilities and a draw in [0, 1), the draw selects spike, lobe,
      back-scatter and Lambertian reflection in that order as it grows. */
  lemma ChooseReflectionBands(u: real, p: SurfaceParams)
    requires p.probSpike >= 0.0 && p.probLobe >= 0.0 && p.probBack >= 0.0
    requires 0.0 <= u < 1.0
    ensures u < p.probSpike ==> ChooseReflection(u, p) == SpikeReflection
    ensures p.probSpike <= u <= p.probSpike + p.probLobe ==> ChooseReflection(u, p) == LobeReflection
    ensures p.probSpike + p.probLobe < u < p.probSpike + p.probLobe + p.probBack ==>
              ChooseReflection(u, p) == BackScattering
    ensures p.probSpike + p.probLobe < u && p.probSpike + p.probLobe + p.probBack <= u ==>
              ChooseReflection(u, p) == LambertianReflection
  {
  }

  /** DielectricLUT's status (lines 745-746): the finish's integer value shifted
      by NoRINDEX - groundbackpainted. */
  function LutStatus(f: Finish): (s: Status)
  {
    StatusOf(FinishOrdinal(f) + (StatusOrdinal(NoRINDEX) - FinishOrdinal(GroundBackPainted)))
  }

  /** The reflection status named after each look-up-table finish. */
  function NamedLutReflection(f: Finish): Option<Status>
  {
    match f
    case PolishedLumirrorAir => Some(PolishedLumirrorAirReflection)
    case PolishedLumirrorGlue => Some(PolishedLumirrorGlueReflection)
    case PolishedAir => Some(PolishedAirReflection)
    case PolishedTeflonAir => Some(PolishedTeflonAirReflection)
    case PolishedTiOAir => Some(PolishedTiOAirReflection)
    case PolishedTyvekAir => Some(PolishedTyvekAirReflection)
    case PolishedVM2000Air => Some(PolishedVM2000AirReflection)
    case PolishedVM2000Glue => Some(PolishedVM2000GlueReflection)
    case EtchedLumirrorAir => Some(EtchedLumirrorAirReflection)
    case EtchedLumirrorGlue => Some(EtchedLumirrorGlueReflection)
    case EtchedAir => Some(EtchedAirReflection)
    case EtchedTeflonAir => Some(EtchedTeflonAirReflection)
    case EtchedTiOAir => Some(EtchedTiOAirReflection)
    case EtchedTyvekAir => Some(EtchedTyvekAirReflection)
    case EtchedVM2000Air => Some(EtchedVM2000AirReflection)
    case EtchedVM2000Glue => Some(EtchedVM2000GlueReflection)
    case GroundLumirrorAir => Some(GroundLumirrorAirReflection)
    case GroundLumirrorGlue => Some(GroundLumirrorGlueReflection)
    case GroundAir => Some(GroundAirReflection)
    case GroundTeflonAir => Some(GroundTeflonAirReflection)
    case GroundTiOAir => Some(GroundTiOAirReflection)
    case GroundTyvekAir => Some(GroundTyvekAirReflection)
    case GroundVM2000Air => Some(GroundVM2000AirReflection)
    case GroundVM2000Glue => Some(GroundVM2000GlueReflection)
    case _ => None
  }

  /** The offset arithmetic lands every look-up-table finish on the reflection
      status of the same name, and every basic finish outside the reflections:
      on Absorption .. NoRINDEX, from polished to groundbackpainted. */
  lemma LutStatusMatchesName(f: Finish)
    ensures !BasicFinish(f) ==> NamedLutReflection(f) == Some(LutStatus(f))
    ensures BasicFinish(f) ==> (NamedLutReflection(f) == None && 8 <= StatusOrdinal(LutStatus(f)) <= 13)
    ensures f == Polished ==> LutStatus(f) == Absorption
    ensures f == GroundBackPainted ==> LutStatus(f) == NoRINDEX
  {
    var n := FinishOrdinal(f);
    if n < 6 {
      LutStatusBasic(f);
      if f == Polished {
        assert LutStatus(f) == StatusOf(8);
      } else if f == GroundBackPainted {
        assert LutStatus(f) == StatusOf(13);
      }
    } else if n < 14 {
      LutStatusPolished(f);
    } else if n < 22 {
      LutStatusEtched(f);
    } else {
      LutStatusGround(f);
    }
  }

  /** The offset is 8, and the status index stays inside the enumeration. */
  lemma LutOffset(f: Finish)
    ensures StatusOrdinal(NoRINDEX) - FinishOrdinal(GroundBackPainted) == 8
    ensures LutStatus(f) == StatusOf(FinishOrdinal(f) + 8)
  {
  }

  /** The basic finishes land on Absorption .. NoRINDEX. */
  lemma LutStatusBasic(f: Finish)
    requires 0 <= FinishOrdinal(f) < 6
    ensures BasicFinish(f) && NamedLutReflection(f) == None
    ensures StatusOrdinal(LutStatus(f)) == FinishOrdinal(f) + 8
  {
    LutOffset(f);
    match f
    case Polished => assert LutStatus(f) == StatusOf(8);
    case PolishedFrontPainted => assert LutStatus(f) == StatusOf(9);
    case PolishedBackPainted => assert LutStatus(f) == StatusOf(10);
    case Ground => assert LutStatus(f) == StatusOf(11);
    case GroundFrontPainted => assert LutStatus(f) == StatusOf(12);
    case GroundBackPainted => assert LutStatus(f) == StatusOf(13);
    case _ => assert false;
  }

  /** The polished look-up-table finishes. */
  lemma LutStatusPolished(f: Finish)
    requires 6 <= FinishOrdinal(f) < 14
    ensures !BasicFinish(f) && NamedLutReflection(f) == Some(LutStatus(f))
  {
    LutOffset(f);
    match f
    case PolishedLumirrorAir => assert LutStatus(f) == StatusOf(14);
    case PolishedLumirrorGlue => assert LutStatus(f) == StatusOf(15);
    case PolishedAir => assert LutStatus(f) == StatusOf(16);
    case PolishedTeflonAir => assert LutStatus(f) == StatusOf(17);
    case PolishedTiOAir => assert LutStatus(f) == StatusOf(18);
    case PolishedTyvekAir => assert LutStatus(f) == StatusOf(19);
    case PolishedVM2000Air => assert LutStatus(f) == StatusOf(20);
    case PolishedVM2000Glue => assert LutStatus(f) == StatusOf(21);
    case _ => assert false;
  }

  /** The etched look-up-table finishes. */
  lemma LutStatusEtched(f: Finish)
    requires 14 <= FinishOrdinal(f) < 22
    ensures !BasicFinish(f) && NamedLutReflection(f) == Some(LutStatus(f))
  {
    LutOffset(f);
    match f
    case EtchedLumirrorAir => assert LutStatus(f) == StatusOf(22);
    case EtchedLumirrorGlue => assert LutStatus(f) == StatusOf(23);
    case EtchedAir => assert LutStatus(f) == StatusOf(24);
    case EtchedTeflonAir => assert LutStatus(f) == StatusOf(25);
    case EtchedTiOAir => assert LutStatus(f) == StatusOf(26);
    case EtchedTyvekAir => assert LutStatus(f) == StatusOf(27);
    case EtchedVM2000Air => assert LutStatus(f) == StatusOf(28);
    case EtchedVM2000Glue => assert LutStatus(f) == StatusOf(29);
    case _ => assert false;
  }

  /** The ground look-up-table finishes. */
  lemma LutStatusGround(f: Finish)
    requires 22 <= FinishOrdinal(f) < 30
    ensures !BasicFinish(f) && NamedLutReflection(f) == Some(LutStatus(f))
  {
    LutOffset(f);
    match f
    case GroundLumirrorAir => assert LutStatus(f) == StatusOf(30);
    case GroundLumirrorGlue => assert LutStatus(f) == StatusOf(31);
    case GroundAir => assert LutStatus(f) == StatusOf(32);
    case GroundTeflonAir => assert LutStatus(f) == StatusOf(33);
    case GroundTiOAir => assert LutStatus(f) == StatusOf(34);
    case GroundTyvekAir => assert LutStatus(f) == StatusOf(35);
    case GroundVM2000Air => assert LutStatus(f) == StatusOf(36);
    case GroundVM2000Glue => assert LutStatus(f) == StatusOf(37);
    case _ => assert false;
  }

  /** The first pass of DielectricLUT: absorbed unless the reflectivity draw
      succeeds, otherwise reflected into a direction sampled from the table. */
  function LutFirstPass(p: SurfaceParams, momentum: real, d: Draws): (out: Outcome)
    ensures out.kill <==> !BooleanRand(d.reflect, p.reflectivity)
    ensures out.kill ==> out.status in {Absorption, Detection}
    ensures !out.kill ==> (out.status == LutStatus(p.finish) && out.motion == LutSampled && out.deposit == 0.0)
  {
    if !BooleanRand(d.reflect, p.reflectivity) then DoAbsorption(p, momentum, d.efficiency)
    else Outcome(LutStatus(p.finish), LutSampled, false, 0.0)
  }

  /** The first pass of DielectricMetal (lines 654-728): absorbed unless the
      reflectivity draw succeeds; otherwise a DoReflection under the glisur
      model or on a polished surface, and a ChooseReflection otherwise. */
  function MetalFirstPass(p: SurfaceParams, momentum: real, normal: Vec3, d: Draws): (out: Outcome)
    ensures out.kill <==> !BooleanRand(d.reflect, p.reflectivity)
    ensures out.kill ==> out.status in {Absorption, Detection}
    ensures !out.kill ==>
              (out.deposit == 0.0
               && out.status in {SpikeReflection, LobeReflection, BackScattering, LambertianReflection})
    ensures !out.kill && (p.model == Glisur || p.finish == Polished) ==>
              out.status == (if p.finish == Ground then LobeReflection else SpikeReflection)
    ensures !out.kill && !(p.model == Glisur || p.finish == Polished) ==>
              out.status == ChooseReflection(d.choose, p)
  {
    if !BooleanRand(d.reflect, p.reflectivity) then DoAbsorption(p, momentum, d.efficiency)
    else if p.model == Glisur || p.finish == Polished then DoReflection(Undefined, p.finish, normal, d.facet)
    else Scatter(ChooseReflection(d.choose, p), normal, d.facet)
  }
}

=== FILE: hit_counter.dfy ===
/** The per-run hit counter (MapRunAction): a fixed number of counts, one per
    volume index, zeroed at the start of every run, bumped once per credited
    photon hit, and reported index by index at the end of the run. */
module HitCounter {

  /** The counts, indexed 0 .. |counts|-1 by volume ID. The number of indices
      is fixed when the counter is built and never changes afterwards. */
  datatype Counter = Counter(counts: seq<nat>)

  /** `increment` throws on an index outside the counter. */
  datatype Error = VolIdOutOfBounds(volID: int)

  datatype Result<T> = Ok(value: T) | Failure(error: Error)

  /** One line of the end-of-run report: "Vol <volume> --> <hits> counts." */
  datatype Line = Line(volume: nat, hits: nat)

  predicate InRange(c: Counter, volID: int) {
    0 <= volID < |c.counts|
  }

  predicate AllZero(c: Counter) {
    forall i :: 0 <= i < |c.counts| ==> c.counts[i] == 0
  }

  /** The constructor: `n` value-initialised counts. */
  function Create(n: nat): (c: Counter)
    ensures |c.counts| == n
    ensures AllZero(c)
  {
    Counter(seq(n, _ => 0))
  }

  /** BeginOfRunAction: every count back to zero, same number of indices. */
  function BeginOfRun(c: Counter): (r: Counter)
    ensures |r.counts| == |c.counts|
    ensures AllZero(r)
  {
    Counter(seq(|c.counts|, _ => 0))
  }

  /** `increment(volID)`: one more hit on `volID`; an index outside the
      counter is an error and the counter is left as it was. */
  function Increment(c: Counter, volID: int): (r: Result<Counter>)
    ensures r.Failure? <==> !InRange(c, volID)
    ensures r.Failure? ==> r.error == VolIdOutOfBounds(volID)
    ensures r.Ok? ==> |r.value.counts| == |c.counts|
    ensures r.Ok? ==> r.value.counts[volID] == c.counts[volID] + 1
    ensures r.Ok? ==> forall i :: 0 <= i < |c.counts| && i != volID ==> r.value.counts[i] == c.counts[i]
  {
    if volID < 0 || volID >= |c.counts| then Failure(VolIdOutOfBounds(volID))
    else Ok(Counter(c.counts[volID := c.counts[volID] + 1]))
  }

  /** The number of hits over all indices. */
  function Total(counts: seq<nat>): nat {
    if counts == [] then 0 else counts[0] + Total(counts[1..])
  }

  /** One more hit at any index adds exactly one to the total. */
  lemma {:induction false} TotalBump(counts: seq<nat>, i: nat)
    requires i < |counts|
    ensures Total(counts[i := counts[i] + 1]) == Total(counts) + 1
  {
    if i == 0 {
      assert counts[i := counts[i] + 1][1..] == counts[1..];
    } else {
      assert counts[i := counts[i] + 1][1..] == counts[1..][i - 1 := counts[i] + 1];
      TotalBump(counts[1..], i - 1);
    }
  }

  /** A successful increment records exactly one hit more over the whole counter. */
  lemma IncrementTotal(c: Counter, volID: int)
    requires Increment(c, volID).Ok?
    ensures Total(Increment(c, volID).value.counts) == Total(c.counts) + 1
  {
    TotalBump(c.counts, volID);
  }

  /** `k` successive increments of the same index; the first failure ends the run. */
  function IncrementTimes(c: Counter, volID: int, k: nat): Result<Counter>
  {
    if k == 0 then Ok(c)
    else match IncrementTimes(c, volID, k - 1)
      case Failure(e) => Failure(e)
      case Ok(c') => Increment(c', volID)
  }

  /** The end-of-run report: every index in ascending order, zero counts included. */
  function Report(c: Counter): (r: seq<Line>)
    ensures |r| == |c.counts|
    ensures forall i :: 0 <= i < |r| ==> r[i].volume == i && r[i].hits == c.counts[i]
  {
    seq(|c.counts|, i requires 0 <= i < |c.counts| => Line(i, c.counts[i]))
  }

  /** EndOfRunAction, as the loop over the indices that prints one line each. */
  method EndOfRun(c: Counter) returns (report: seq<Line>)
    ensures |report| == |c.counts|
    ensures forall i :: 0 <= i < |report| ==> report[i] == Line(i, c.counts[i])
    ensures report == Report(c)
  {
    report := [];
    var i := 0;
    while i < |c.counts|
      invariant 0 <= i <= |c.counts|
      invariant |report| == i
      invariant forall j :: 0 <= j < i ==> report[j] == Line(j, c.counts[j])
    {
      report := report + [Line(i, c.counts[i])];
      i := i + 1;
    }
  }

  /** Repeated increments of an in-range index add exactly their number to it
      and touch no other index. */
  lemma {:induction false} IncrementTimesCounts(c: Counter, volID: int, k: nat)
    requires InRange(c, volID)
    ensures IncrementTimes(c, volID, k).Ok?
    ensures |IncrementTimes(c, volID, k).value.counts| == |c.counts|
    ensures IncrementTimes(c, volID, k).value.counts[volID] == c.counts[volID] + k
    ensures forall i :: 0 <= i < |c.counts| && i != volID ==>
              IncrementTimes(c, volID, k).value.counts[i] == c.counts[i]
  {
    if k > 0 {
      IncrementTimesCounts(c, volID, k - 1);
    }
  }

  /** Repeated increments of an out-of-range index fail on the first one. */
  lemma {:induction false} IncrementTimesOutOfRange(c: Counter, volID: int, k: nat)
    requires !InRange(c, volID)
    requires k > 0
    ensures IncrementTimes(c, volID, k) == Failure(VolIdOutOfBounds(volID))
  {
    if k > 1 {
      IncrementTimesOutOfRange(c, volID, k - 1);
    }
  }

  /** A run: reset, then `k` hits on one in-range index, then the report, which
      shows `k` at that index and 0 at every other one. */
  lemma RunLifecycle(c: Counter, volID: int, k: nat)
    requires InRange(c, volID)
    ensures IncrementTimes(BeginOfRun(c), volID, k).Ok?
    ensures var report := Report(IncrementTimes(BeginOfRun(c), volID, k).value);
            && |report| == |c.counts|
            && report[volID] == Line(volID, k)
            && forall i :: 0 <= i < |report| && i != volID ==> report[i] == Line(i, 0)
  {
    IncrementTimesCounts(BeginOfRun(c), volID, k);
  }

  /** Starting a run never changes the number of indices, and it forgets every
      earlier hit: two counters of the same size start the run identical. */
  lemma BeginOfRunForgets(c: Counter, d: Counter)
    requires |c.counts| == |d.counts|
    ensures BeginOfRun(c) == BeginOfRun(d)
    ensures BeginOfRun(c) == Create(|c.counts|)
  {
  }
}

=== FILE: int_parse.dfy ===
/** The C++ `std::stoi` conversion used to turn a volume-ID replacement string
    into an `int`: leading white space is skipped, an optional sign is read,
    then the longest run of decimal digits; anything after the digits is
    ignored. No digits at all is `invalid_argument`; a value outside the
    32-bit `int` range is `out_of_range`. Both are exceptions. */
module IntParse {

  const IntMin: int := -0x8000_0000
  const IntMax: int := 0x7fff_ffff

  datatype Error = InvalidArgument | OutOfRange

  datatype Result = Parsed(value: int) | Failure(error: Error)

  /** The characters `isspace` accepts in the "C" locale. */
  predicate IsSpace(c: char) {
    c == ' ' || c == '\t' || c == '\n' || c == '\U{B}' || c == '\U{C}' || c == '\r'
  }

  predicate IsDigit(c: char) {
    '0' <= c <= '9'
  }

  function DigitValue(c: char): (d: nat)
    requires IsDigit(c)
    ensures d < 10
  {
    (c as int) - ('0' as int)
  }

  function DigitChar(d: nat): (c: char)
    requires d < 10
    ensures IsDigit(c) && DigitValue(c) == d
  {
    ('0' as int + d) as char
  }

  predicate AllDigits(s: string) {
    forall i :: 0 <= i < |s| ==> IsDigit(s[i])
  }

  /** `s` without its leading white space. */
  function SkipSpace(s: string): (r: string)
    ensures |r| <= |s| && r == s[|s| - |r|..]
    ensures forall i :: 0 <= i < |s| - |r| ==> IsSpace(s[i])
    ensures r == [] || !IsSpace(r[0])
  {
    if s != [] && IsSpace(s[0]) then SkipSpace(s[1..]) else s
  }

  /** The length of the run of digits that starts `s`. */
  function DigitRun(s: string): (n: nat)
    ensures n <= |s|
    ensures AllDigits(s[..n])
    ensures n == |s| || !IsDigit(s[n])
  {
    if s != [] && IsDigit(s[0]) then 1 + DigitRun(s[1..]) else 0
  }

  /** The value of a string of decimal digits, most significant first. */
  function DecimalValue(ds: string): nat
    requires AllDigits(ds)
  {
    if ds == [] then 0
    else DecimalValue(ds[..|ds| - 1]) * 10 + DigitValue(ds[|ds| - 1])
  }

  /** `std::stoi(s)` with base 10. */
  function Stoi(s: string): (r: Result)
    ensures r.Parsed? ==> IntMin <= r.value <= IntMax
  {
    var t := SkipSpace(s);
    if t != [] && t[0] == '-' then Convert(t[1..], true)
    else if t != [] && t[0] == '+' then Convert(t[1..], false)
    else Convert(t, false)
  }

  /** The digits after the sign: the longest digit run, range-checked. */
  function Convert(u: string, negative: bool): (r: Result)
    ensures r.Parsed? ==> IntMin <= r.value <= IntMax
    ensures r == Failure(InvalidArgument) <==> DigitRun(u) == 0
  {
    var n := DigitRun(u);
    if n == 0 then Failure(InvalidArgument)
    else
      var magnitude: int := DecimalValue(u[..n]);
      var v := if negative then -magnitude else magnitude;
      if v < IntMin || v > IntMax then Failure(OutOfRange) else Parsed(v)
  }

  /** The decimal digits of a natural number, without leading zeros. */
  function NatDigits(n: nat): (ds: string)
    ensures AllDigits(ds) && ds != []
    ensures |ds| > 1 ==> ds[0] != '0'
  {
    if n < 10 then [DigitChar(n)] else NatDigits(n / 10) + [DigitChar(n % 10)]
  }

  /** The decimal rendering of an integer, with a leading '-' when negative. */
  function Render(v: int): string
  {
    if v < 0 then "-" + NatDigits(-v) else NatDigits(v)
  }

  lemma {:induction false} DecimalValueOfNatDigits(n: nat)
    ensures DecimalValue(NatDigits(n)) == n
  {
    if n >= 10 {
      var ds := NatDigits(n);
      assert ds[..|ds| - 1] == NatDigits(n / 10);
      DecimalValueOfNatDigits(n / 10);
    }
  }

  lemma DigitRunOfDigitsThen(ds: string, rest: string)
    requires AllDigits(ds)
    requires rest == [] || !IsDigit(rest[0])
    ensures DigitRun(ds + rest) == |ds|
  {
    if ds != [] {
      assert (ds + rest)[1..] == ds[1..] + rest;
      DigitRunOfDigitsThen(ds[1..], rest);
    } else {
      assert ds + rest == rest;
    }
  }

  lemma ConvertDigitsThen(ds: string, rest: string, negative: bool)
    requires AllDigits(ds) && ds != []
    requires rest == [] || !IsDigit(rest[0])
    ensures var v: int := if negative then -(DecimalValue(ds) as int) else DecimalValue(ds);
            Convert(ds + rest, negative) == if v < IntMin || v > IntMax then Failure(OutOfRange) else Parsed(v)
  {
    DigitRunOfDigitsThen(ds, rest);
    assert (ds + rest)[..|ds|] == ds;
  }

  /** Rendering then parsing gives the integer back when it fits an `int`, and
      `out_of_range` when it does not; trailing non-digits do not matter. */
  lemma RenderRoundTrip(v: int, rest: string)
    requires rest == [] || !IsDigit(rest[0])
    ensures IntMin <= v <= IntMax ==> Stoi(Render(v) + rest) == Parsed(v)
    ensures (v < IntMin || v > IntMax) ==> Stoi(Render(v) + rest) == Failure(OutOfRange)
  {
    var m: nat := if v < 0 then -v else v;
    var ds := NatDigits(m);
    DecimalValueOfNatDigits(m);
    ConvertDigitsThen(ds, rest, v < 0);
    if v < 0 {
      NegativeStoi(ds, rest);
    } else {
      var s := ds + rest;
      assert Render(v) + rest == s;
      assert !IsSpace(s[0]) && s[0] != '-' && s[0] != '+';
    }
  }

  lemma NegativeStoi(ds: string, rest: string)
    requires AllDigits(ds) && ds != []
    ensures Stoi("-" + ds + rest) == Convert(ds + rest, true)
  {
    var s := "-" + ds + rest;
    assert s[0] == '-';
    assert SkipSpace(s) == s;
    assert s[1..] == ds + rest;
  }

  /** A string with no digit after the optional white space and sign is
      rejected with `invalid_argument`. */
  lemma NoDigitsIsInvalid(s: string)
    requires forall i :: 0 <= i < |s| ==> !IsDigit(s[i])
    ensures Stoi(s) == Failure(InvalidArgument)
  {
    var t := SkipSpace(s);
    assert forall i :: 0 <= i < |t| ==> !IsDigit(t[i]) by {
      forall i | 0 <= i < |t| ensures !IsDigit(t[i]) {
        assert t[i] == s[|s| - |t| + i];
      }
    }
  }
}

=== FILE: optics_types.dfy ===
/** The vocabulary of the optical boundary process: the closed set of boundary
    statuses, surface finishes, surface models and surface types, the materials
    and optical surface a photon meets at a boundary, and the photon's
    direction vectors. Optical property tables are represented by their values
    at the photon's energy, since evaluating a property vector is not part of
    the decision logic. */
module OpticalTypes {

  /** The boundary status. The order is the enumeration's: the look-up-table
      reflections follow NoRINDEX directly, and the wavelength-shift
      re-emission status (TPBMagic) comes last. */
  datatype Status =
    | Undefined
    | FresnelRefraction | FresnelReflection | TotalInternalReflection
    | LambertianReflection | LobeReflection | SpikeReflection | BackScattering
    | Absorption | Detection | NotAtBoundary | SameMaterial | StepTooSmall | NoRINDEX
    | PolishedLumirrorAirReflection | PolishedLumirrorGlueReflection | PolishedAirReflection
    | PolishedTeflonAirReflection | PolishedTiOAirReflection | PolishedTyvekAirReflection
    | PolishedVM2000AirReflection | PolishedVM2000GlueReflection
    | EtchedLumirrorAirReflection | EtchedLumirrorGlueReflection | EtchedAirReflection
    | EtchedTeflonAirReflection | EtchedTiOAirReflection | EtchedTyvekAirReflection
    | EtchedVM2000AirReflection | EtchedVM2000GlueReflection
    | GroundLumirrorAirReflection | GroundLumirrorGlueReflection | GroundAirReflection
    | GroundTeflonAirReflection | GroundTiOAirReflection | GroundTyvekAirReflection
    | GroundVM2000AirReflection | GroundVM2000GlueReflection
    | TPBMagic

  /** The number of statuses. */
  const StatusCount: nat := 39

  /** The status whose integer value is `n`: a cast of an int to the enumeration. */
  function StatusOf(n: nat): Status
    requires n < StatusCount
  {
    match n
    case 0 => Undefined
    case 1 => FresnelRefraction
    case 2 => FresnelReflection
    case 3 => TotalInternalReflection
    case 4 => LambertianReflection
    case 5 => LobeReflection
    case 6 => SpikeReflection
    case 7 => BackScattering
    case 8 => Absorption
    case 9 => Detection
    case 10 => NotAtBoundary
    case 11 => SameMaterial
    case 12 => StepTooSmall
    case 13 => NoRINDEX
    case 14 => PolishedLumirrorAirReflection
    case 15 => PolishedLumirrorGlueReflection
    case 16 => PolishedAirReflection
    case 17 => PolishedTeflonAirReflection
    case 18 => PolishedTiOAirReflection
    case 19 => PolishedTyvekAirReflection
    case 20 => PolishedVM2000AirReflection
    case 21 => PolishedVM2000GlueReflection
    case 22 => EtchedLumirrorAirReflection
    case 23 => EtchedLumirrorGlueReflection
    case 24 => EtchedAirReflection
    case 25 => EtchedTeflonAirReflection
    case 26 => EtchedTiOAirReflection
    case 27 => EtchedTyvekAirReflection
    case 28 => EtchedVM2000AirReflection
    case 29 => EtchedVM2000GlueReflection
    case 30 => GroundLumirrorAirReflection
    case 31 => GroundLumirrorGlueReflection
    case 32 => GroundAirReflection
    case 33 => GroundTeflonAirReflection
    case 34 => GroundTiOAirReflection
    case 35 => GroundTyvekAirReflection
    case 36 => GroundVM2000AirReflection
    case 37 => GroundVM2000GlueReflection
    case _ => TPBMagic
  }

  /** The surface finish, in enumeration order: the six basic finishes, then
      the look-up-table finishes. */
  datatype Finish =
    | Polished | PolishedFrontPainted | PolishedBackPainted
    | Ground | GroundFrontPainted | GroundBackPainted
    | PolishedLumirrorAir | PolishedLumirrorGlue | PolishedAir | PolishedTeflonAir
    | PolishedTiOAir | PolishedTyvekAir | PolishedVM2000Air | PolishedVM2000Glue
    | EtchedLumirrorAir | EtchedLumirrorGlue | EtchedAir | EtchedTeflonAir
    | EtchedTiOAir | EtchedTyvekAir | EtchedVM2000Air | EtchedVM2000Glue
    | GroundLumirrorAir | GroundLumirrorGlue | GroundAir | GroundTeflonAir
    | GroundTiOAir | GroundTyvekAir | GroundVM2000Air | GroundVM2000Glue

  const Finishes: seq<Finish> := [
    Polished, PolishedFrontPainted, PolishedBackPainted,
    Ground, GroundFrontPainted, GroundBackPainted,
    PolishedLumirrorAir, PolishedLumirrorGlue, PolishedAir, PolishedTeflonAir,
    PolishedTiOAir, PolishedTyvekAir, PolishedVM2000Air, PolishedVM2000Glue,
    EtchedLumirrorAir, EtchedLumirrorGlue, EtchedAir, EtchedTeflonAir,
    EtchedTiOAir, EtchedTyvekAir, EtchedVM2000Air, EtchedVM2000Glue,
    GroundLumirrorAir, GroundLumirrorGlue, GroundAir, GroundTeflonAir,
    GroundTiOAir, GroundTyvekAir, GroundVM2000Air, GroundVM2000Glue]

  datatype SurfaceModel = Glisur | Unified | LUT

  datatype SurfaceType = DielectricMetal | DielectricDielectric | DielectricLUT | Firsov | XRay

  predicate BackPainted(f: Finish) {
    f == PolishedBackPainted || f == GroundBackPainted
  }

  /** The finishes for which the boundary process reads the refractive index
      of the material behind the surface. */
  predicate PolishedOrGround(f: Finish) {
    f == Polished || f == Ground
  }

  /** The six finishes that are not look-up-table entries. */
  predicate BasicFinish(f: Finish) {
    f.Polished? || f.PolishedFrontPainted? || f.PolishedBackPainted?
    || f.Ground? || f.GroundFrontPainted? || f.GroundBackPainted?
  }

  /** The integer value of a finish. */
  function FinishOrdinal(f: Finish): (n: nat)
    ensures n < |Finishes| && Finishes[n] == f
  {
    match f
    case Polished => 0 case PolishedFrontPainted => 1 case PolishedBackPainted => 2
    case Ground => 3 case GroundFrontPainted => 4 case GroundBackPainted => 5
    case PolishedLumirrorAir => 6 case PolishedLumirrorGlue => 7 case PolishedAir => 8
    case PolishedTeflonAir => 9 case PolishedTiOAir => 10 case PolishedTyvekAir => 11
    case PolishedVM2000Air => 12 case PolishedVM2000Glue => 13
    case EtchedLumirrorAir => 14 case EtchedLumirrorGlue => 15 case EtchedAir => 16
    case EtchedTeflonAir => 17 case EtchedTiOAir => 18 case EtchedTyvekAir => 19
    case EtchedVM2000Air => 20 case EtchedVM2000Glue => 21
    case GroundLumirrorAir => 22 case GroundLumirrorGlue => 23 case GroundAir => 24
    case GroundTeflonAir => 25 case GroundTiOAir => 26 case GroundTyvekAir => 27
    case GroundVM2000Air => 28 case GroundVM2000Glue => 29
  }

  /** The integer value of a status. */
  function StatusOrdinal(s: Status): (n: nat)
    ensures n < StatusCount && StatusOf(n) == s
  {
    match s
    case Undefined => 0
    case FresnelRefraction => 1 case FresnelReflection => 2 case TotalInternalReflection => 3
    case LambertianReflection => 4 case LobeReflection => 5 case SpikeReflection => 6
    case BackScattering => 7 case Absorption => 8 case Detection => 9
    case NotAtBoundary => 10 case SameMaterial => 11 case StepTooSmall => 12 case NoRINDEX => 13
    case PolishedLumirrorAirReflection => 14 case PolishedLumirrorGlueReflection => 15
    case PolishedAirReflection => 16 case PolishedTeflonAirReflection => 17
    case PolishedTiOAirReflection => 18 case PolishedTyvekAirReflection => 19
    case PolishedVM2000AirReflection => 20 case PolishedVM2000GlueReflection => 21
    case EtchedLumirrorAirReflection => 22 case EtchedLumirrorGlueReflection => 23
    case EtchedAirReflection => 24 case EtchedTeflonAirReflection => 25
    case EtchedTiOAirReflection => 26 case EtchedTyvekAirReflection => 27
    case EtchedVM2000AirReflection => 28 case EtchedVM2000GlueReflection => 29
    case GroundLumirrorAirReflection => 30 case GroundLumirrorGlueReflection => 31
    case GroundAirReflection => 32 case GroundTeflonAirReflection => 33
    case GroundTiOAirReflection => 34 case GroundTyvekAirReflection => 35
    case GroundVM2000AirReflection => 36 case GroundVM2000GlueReflection => 37
    case TPBMagic => 38
  }

  /** Casting an integer to a status and back gives the integer: the two
      numberings agree on all 39 values. */
  lemma StatusCastRoundTrip(n: nat)
    requires n < StatusCount
    ensures StatusOrdinal(StatusOf(n)) == n
  {
  }

  /** A direction or polarization vector. */
  datatype Vec3 = Vec3(x: real, y: real, z: real)

  function Dot(a: Vec3, b: Vec3): real {
    a.x * b.x + a.y * b.y + a.z * b.z
  }

  function Neg(a: Vec3): Vec3 {
    Vec3(-a.x, -a.y, -a.z)
  }

  function NormSquared(a: Vec3): real {
    Dot(a, a)
  }

  /** A material's property table, as far as the boundary process reads it:
      the refractive index and the group velocity at the photon's energy, when
      the table has them. */
  datatype MaterialTable = MaterialTable(rindex: Option<real>, groupVel: Option<real>)

  /** A material; `handle` stands for the object's identity, which is what the
      process compares when it asks whether the two sides are the same material. */
  datatype Material = Material(handle: nat, name: string, table: Option<MaterialTable>)

  /** An optical surface's property table, each entry evaluated at the photon's
      energy when present. */
  datatype SurfaceTable = SurfaceTable(
    rindex: Option<real>,
    reflectivity: Option<real>,
    realRindex: Option<real>,
    imaginaryRindex: Option<real>,
    efficiency: Option<real>,
    transmittance: Option<real>,
    specularLobe: Option<real>,
    specularSpike: Option<real>,
    backScatter: Option<real>)

  datatype OpticalSurface = OpticalSurface(
    kind: SurfaceType, model: SurfaceModel, finish: Finish, table: Option<SurfaceTable>)

  datatype Option<T> = None | Some(value: T)
}

=== FILE: step_record.dfy ===
/** The stepping action's step-record buffer: eighteen parallel column vectors
    (particle, track, parent, step number, kinetic energy, deposited energy,
    global and local position, momentum direction, time, volume ID, replica
    number), pushed together one row at a time and cleared together. */
module StepRecord {

  /** One row across the eighteen columns. */
  datatype Row = Row(
    pid: int, trackID: int, parentID: int, stepNumber: int,
    ke: real, edep: real,
    x: real, y: real, z: real,
    lx: real, ly: real, lz: real,
    pdx: real, pdy: real, pdz: real,
    t: real, volID: int, iRep: int)

  datatype Columns = Columns(
    pid: seq<int>, trackID: seq<int>, parentID: seq<int>, stepNumber: seq<int>,
    ke: seq<real>, edep: seq<real>,
    x: seq<real>, y: seq<real>, z: seq<real>,
    lx: seq<real>, ly: seq<real>, lz: seq<real>,
    pdx: seq<real>, pdy: seq<real>, pdz: seq<real>,
    t: seq<real>, volID: seq<int>, iRep: seq<int>)

  /** The number of rows, read off the particle column as WriteRow does. */
  function Size(c: Columns): nat {
    |c.pid|
  }

  /** All eighteen columns hold the same number of entries. */
  predicate Aligned(c: Columns) {
    var n := |c.pid|;
    && |c.trackID| == n && |c.parentID| == n && |c.stepNumber| == n
    && |c.ke| == n && |c.edep| == n
    && |c.x| == n && |c.y| == n && |c.z| == n
    && |c.lx| == n && |c.ly| == n && |c.lz| == n
    && |c.pdx| == n && |c.pdy| == n && |c.pdz| == n
    && |c.t| == n && |c.volID| == n && |c.iRep| == n
  }

  /** ResetVars: every column cleared. */
  function Reset(): (r: Columns)
    ensures Aligned(r) && Size(r) == 0
    ensures |r.volID| == 0 && |r.edep| == 0 && |r.iRep| == 0
  {
    Columns([], [], [], [], [], [], [], [], [], [], [], [], [], [], [], [], [], [])
  }

  /** Row `i` read back across the columns. */
  function RowAt(c: Columns, i: nat): Row
    requires Aligned(c) && i < Size(c)
  {
    Row(c.pid[i], c.trackID[i], c.parentID[i], c.stepNumber[i],
        c.ke[i], c.edep[i], c.x[i], c.y[i], c.z[i],
        c.lx[i], c.ly[i], c.lz[i], c.pdx[i], c.pdy[i], c.pdz[i],
        c.t[i], c.volID[i], c.iRep[i])
  }

  /** The eighteen `push_back`s of one record. */
  function Push(c: Columns, row: Row): (r: Columns)
    ensures Aligned(c) ==> Aligned(r) && Size(r) == Size(c) + 1
    ensures Aligned(c) ==> RowAt(r, Size(c)) == row
    ensures Aligned(c) ==> forall i :: 0 <= i < Size(c) ==> RowAt(r, i) == RowAt(c, i)
  {
    Columns(
      c.pid + [row.pid], c.trackID + [row.trackID], c.parentID + [row.parentID],
      c.stepNumber + [row.stepNumber], c.ke + [row.ke], c.edep + [row.edep],
      c.x + [row.x], c.y + [row.y], c.z + [row.z],
      c.lx + [row.lx], c.ly + [row.ly], c.lz + [row.lz],
      c.pdx + [row.pdx], c.pdy + [row.pdy], c.pdz + [row.pdz],
      c.t + [row.t], c.volID + [row.volID], c.iRep + [row.iRep])
  }

  /** The rows of aligned columns, in push order. */
  function Rows(c: Columns): (rows: seq<Row>)
    requires Aligned(c)
    ensures |rows| == Size(c)
    ensures forall i :: 0 <= i < |rows| ==> rows[i] == RowAt(c, i)
  {
    seq(Size(c), i requires 0 <= i < Size(c) => RowAt(c, i))
  }

  /** A push appends exactly its row to the rows read back. */
  lemma RowsPush(c: Columns, row: Row)
    requires Aligned(c)
    ensures Aligned(Push(c, row))
    ensures Rows(Push(c, row)) == Rows(c) + [row]
  {
    var r := Push(c, row);
    assert forall i :: 0 <= i < Size(c) ==> Rows(r)[i] == (Rows(c) + [row])[i];
  }

  /** The columns holding exactly `rows`, pushed in order onto cleared columns. */
  function FromRows(rows: seq<Row>): Columns
  {
    if rows == [] then Reset()
    else Push(FromRows(rows[..|rows| - 1]), rows[|rows| - 1])
  }

  /** Pushing rows onto cleared columns and reading them back gives the same
      rows: the eighteen columns never fall out of step. */
  lemma {:induction false} FromRowsRoundTrip(rows: seq<Row>)
    ensures Aligned(FromRows(rows))
    ensures Rows(FromRows(rows)) == rows
  {
    if rows != [] {
      var init := rows[..|rows| - 1];
      FromRowsRoundTrip(init);
      var last := rows[|rows| - 1];
      assert FromRows(rows) == Push(FromRows(init), last);
      RowsPush(FromRows(init), last);
      assert init + [last] == rows;
    }
  }
}

=== FILE: stepping.dfy ===
/** The stepping action's per-step work (G4SimpleSteppingAction::UserSteppingAction):
    give the post-step volume its ID, credit optical-photon hits to the run's hit
    counter, open the output on the first step, flush the buffer when the event
    changes, and push the pre-step and post-step records. The output file is
    the sequence of rows written so far. */
module Stepping {
  import opened SteppingConfig
  import opened StepRecord
  import VolumeIds
  import HitCounter
  import OpticalTypes

  /** What is recorded of one step point. */
  datatype Point = Point(
    ke: real,
    x: real, y: real, z: real,
    lx: real, ly: real, lz: real,
    pdx: real, pdy: real, pdz: real,
    t: real, iRep: int)

  /** Everything one step hands the action. `boundary` is the status of the
      boundary process when the particle is an optical photon whose process
      list has one, and None otherwise; `fiberDraw` is the uniform number drawn
      for a shroud crossing; `eventID` and `eventsToProcess` are what the event
      and run managers report. */
  datatype StepInfo = StepInfo(
    postVolume: VolumeIds.Volume,
    preVolumeName: string,
    boundary: OpticalTypes.Option<OpticalTypes.Status>,
    fiberDraw: real,
    eventID: int,
    eventsToProcess: int,
    pid: int, trackID: int, parentID: int, stepNumber: int,
    edep: real,
    pre: Point, post: Point)

  /** One row of the output table: a step row in the step-wise option, one row
      carrying the whole buffer in the event-wise option. */
  datatype Output =
    | StepRow(nEvents: int, event: int, row: Row)
    | EventRows(nEvents: int, event: int, rows: seq<Row>)

  datatype State = State(
    config: Config,
    cache: VolumeIds.Cache,
    columns: Columns,
    fileOpen: bool,
    nEvents: int,
    eventNumber: int,
    lastEvent: OpticalTypes.Option<int>,
    hits: HitCounter.Counter,
    written: seq<Output>)

  datatype Error = VolIdError(volIdError: VolumeIds.Error) | CountError(countError: HitCounter.Error)

  datatype Result<T> = Ok(value: T) | Failure(error: Error)

  /** The action's state after a step, the ID the step's volume was given, and
      whether the action stopped and killed the track. */
  datatype Stepped = Stepped(state: State, id: int, kill: bool)

  datatype Credited = Credited(hits: HitCounter.Counter, kill: bool)

  /** The constructor: default configuration, counts, event number and cleared
      buffer, sharing the run action's hit counter. */
  function Construct(hits: HitCounter.Counter): (s: State)
    ensures Valid(s) && Size(s.columns) == 0 && !s.fileOpen && s.written == []
  {
    State(Initial, map[], FromRows([]), false, 0, 0, OpticalTypes.None, hits, [])
  }

  /** No recorded row carries the "not sensitive" ID. */
  predicate NoInsensitiveRows(c: Columns) {
    forall i :: 0 <= i < |c.volID| ==> c.volID[i] != VolumeIds.NotSensitive
  }

  /** The buffer's columns are in step and hold no row of an insensitive volume. */
  predicate Valid(s: State) {
    Aligned(s.columns) && NoInsensitiveRows(s.columns)
  }

  // ---------------------------------------------------------------------------
  // Hit crediting
  // ---------------------------------------------------------------------------

  /** The boundary process detected the photon in the volume it entered. */
  predicate Detected(info: StepInfo) {
    info.postVolume.Physical? && info.boundary == OpticalTypes.Some(OpticalTypes.Detection)
  }

  /** A photon crossing from the liquid argon into a fiber shroud with no
      change of material is caught with the shrouds' detection probability. */
  predicate FiberCatch(info: StepInfo, fiberDetProb: real) {
    && info.postVolume.Physical?
    && info.boundary == OpticalTypes.Some(OpticalTypes.SameMaterial)
    && (info.postVolume.name == "innerShroud" || info.postVolume.name == "outerShroud")
    && info.preVolumeName == "larVolume"
    && info.fiberDraw <= fiberDetProb
  }

  /** The status switch: a detection, or a fiber catch, adds one hit at the
      volume's ID and a fiber catch also kills the track; nothing happens for
      any other status, or when the step left the world. */
  function Credit(hits: HitCounter.Counter, id: int, info: StepInfo, fiberDetProb: real): (r: Result<Credited>)
    ensures r.Failure? <==>
              (Detected(info) || FiberCatch(info, fiberDetProb)) && !HitCounter.InRange(hits, id)
    ensures r.Failure? ==> r.error == CountError(HitCounter.VolIdOutOfBounds(id))
    ensures r.Ok? ==> r.value.kill == FiberCatch(info, fiberDetProb)
    ensures r.Ok? ==> HitCounter.Total(r.value.hits.counts) ==
                        HitCounter.Total(hits.counts) + (if Detected(info) || FiberCatch(info, fiberDetProb) then 1 else 0)
    ensures r.Ok? ==> |r.value.hits.counts| == |hits.counts|
    ensures r.Ok? && (Detected(info) || FiberCatch(info, fiberDetProb)) ==>
              HitCounter.InRange(hits, id) && r.value.hits.counts[id] == hits.counts[id] + 1
    ensures r.Ok? ==>
              r.value.hits == (if Detected(info) || FiberCatch(info, fiberDetProb)
                               then HitCounter.Increment(hits, id).value else hits)
  {
    if Detected(info) || FiberCatch(info, fiberDetProb) then
      match HitCounter.Increment(hits, id)
      case Failure(e) => Failure(CountError(e))
      case Ok(h) => HitCounter.IncrementTotal(hits, id); Ok(Credited(h, FiberCatch(info, fiberDetProb)))
    else Ok(Credited(hits, false))
  }

  // ---------------------------------------------------------------------------
  // Output
  // ---------------------------------------------------------------------------

  /** The first step of a run creates the table and opens the file: the buffer
      and the volume-ID cache are cleared and the number of events to process
      is read. */
  function OpenOutput(s: State, eventsToProcess: int): (r: State)
    requires Valid(s)
    ensures Valid(r) && r.fileOpen
    ensures s.fileOpen ==> r == s
    ensures !s.fileOpen ==> Size(r.columns) == 0 && r.cache == map[] && r.nEvents == eventsToProcess
    ensures r.config == s.config && r.hits == s.hits && r.written == s.written && r.lastEvent == s.lastEvent
  {
    if s.fileOpen then s
    else s.(fileOpen := true, columns := Reset(), nEvents := eventsToProcess, cache := map[])
  }

  /** What a change of event writes in the event-wise option: the buffer as
      one row labelled `event`, when it holds anything. */
  function FlushRows(s: State, event: int): seq<Output>
    requires Aligned(s.columns)
  {
    if s.config.option == EventWise && Size(s.columns) > 0 then [EventRows(s.nEvents, event, Rows(s.columns))]
    else []
  }

  /** The event the buffer belongs to: the one seen last, or the current one
      on the very first step (the static is initialised from it). */
  function PreviousEvent(s: State, eventID: int): int {
    if s.lastEvent.Some? then s.lastEvent.value else eventID
  }

  /** The event-change block AS WRITTEN: the event number is updated before
      the buffer is flushed, so the flushed row carries the new event's number. */
  function EventChangeAsWritten(s: State, eventID: int): (r: State)
    requires Valid(s)
    ensures Valid(r)
  {
    var s' := s.(eventNumber := eventID, lastEvent := OpticalTypes.Some(eventID));
    if eventID != PreviousEvent(s, eventID) then
      s'.(written := s.written + FlushRows(s, eventID), columns := Reset())
    else s'
  }

  /** The event-change block as intended: the buffer is flushed under the
      number of the event it was filled in. */
  function EventChange(s: State, eventID: int): (r: State)
    requires Valid(s)
    ensures Valid(r)
    ensures r.eventNumber == eventID && r.lastEvent == OpticalTypes.Some(eventID)
    ensures eventID == PreviousEvent(s, eventID) ==> r == s.(eventNumber := eventID, lastEvent := OpticalTypes.Some(eventID))
    ensures eventID != PreviousEvent(s, eventID) ==>
              Size(r.columns) == 0 && r.written == s.written + FlushRows(s, PreviousEvent(s, eventID))
    ensures r.config == s.config && r.hits == s.hits && r.fileOpen == s.fileOpen && r.nEvents == s.nEvents
    ensures r.cache == s.cache
  {
    var previous := PreviousEvent(s, eventID);
    var s' := s.(eventNumber := eventID, lastEvent := OpticalTypes.Some(eventID));
    if eventID != previous then
      s'.(written := s.written + FlushRows(s, previous), columns := Reset())
    else s'
  }

  /** The record of the step's pre-step point: step number 0, no deposit, and
      ID 0 in place of "not sensitive". */
  function PreRow(info: StepInfo, id: int): Row {
    var p := info.pre;
    Row(info.pid, info.trackID, info.parentID, 0, p.ke, 0.0,
        p.x, p.y, p.z, p.lx, p.ly, p.lz, p.pdx, p.pdy, p.pdz, p.t,
        if id == VolumeIds.NotSensitive then 0 else id, p.iRep)
  }

  /** The record of the step's post-step point. */
  function PostRow(info: StepInfo, id: int): Row {
    var p := info.post;
    Row(info.pid, info.trackID, info.parentID, info.stepNumber, p.ke, info.edep,
        p.x, p.y, p.z, p.lx, p.ly, p.lz, p.pdx, p.pdy, p.pdz, p.t, id, p.iRep)
  }

  /** The step-wise option writes each pushed record at once, as a row under
      the current event number; the event-wise option writes nothing per step. */
  function Echo(s: State, rows: seq<Row>): seq<Output> {
    if s.config.option == StepWise then StepRows(s.nEvents, s.eventNumber, rows) else []
  }

  /** The step-wise rows written for `rows`, under one event number. */
  function StepRows(nEvents: int, event: int, rows: seq<Row>): (out: seq<Output>)
    ensures |out| == |rows|
    ensures forall i :: 0 <= i < |rows| ==> out[i] == StepRow(nEvents, event, rows[i])
  {
    if rows == [] then [] else [StepRow(nEvents, event, rows[0])] + StepRows(nEvents, event, rows[1..])
  }

  lemma StepRowsAppend(nEvents: int, event: int, a: seq<Row>, b: seq<Row>)
    ensures StepRows(nEvents, event, a + b) == StepRows(nEvents, event, a) + StepRows(nEvents, event, b)
  {
    var l := StepRows(nEvents, event, a + b);
    var rr := StepRows(nEvents, event, a) + StepRows(nEvents, event, b);
    assert |l| == |rr|;
    forall i | 0 <= i < |l| ensures l[i] == rr[i] {
      if i < |a| {
        assert (a + b)[i] == a[i];
      } else {
        assert (a + b)[i] == b[i - |a|];
      }
    }
  }

  /** WriteRow after a push: in the step-wise option, the LAST row of the
      buffer under the current event number. */
  function WrittenAfterPush(s: State): seq<Output>
    requires Aligned(s.columns) && Size(s.columns) > 0
  {
    if s.config.option == StepWise then [StepRow(s.nEvents, s.eventNumber, RowAt(s.columns, Size(s.columns) - 1))]
    else []
  }

  /** Push one record, then WriteRow in the step-wise option: what is written
      is exactly the record just pushed. */
  function Record(s: State, row: Row): (r: State)
    requires Valid(s) && row.volID != VolumeIds.NotSensitive
    ensures Valid(r)
    ensures Rows(r.columns) == Rows(s.columns) + [row]
    ensures r.written == s.written + Echo(s, [row])
    ensures r == s.(columns := r.columns, written := r.written)
  {
    RowsPush(s.columns, row);
    var s' := s.(columns := Push(s.columns, row));
    assert StepRows(s.nEvents, s.eventNumber, [row]) == [StepRow(s.nEvents, s.eventNumber, row)];
    s'.(written := s.written + WrittenAfterPush(s'))
  }

  /** The pre-step point is recorded on an empty buffer (the first step of an
      event) and, when every step is recorded, on a track's first step. */
  predicate PreRecorded(s: State, info: StepInfo) {
    |s.columns.volID| == 0 || (s.config.recordAllSteps && info.stepNumber == 1)
  }

  /** The post-step point is recorded in a sensitive volume, and only when
      energy was deposited unless every step is recorded. */
  predicate PostRecorded(c: Config, info: StepInfo, id: int) {
    id != VolumeIds.NotSensitive && (c.recordAllSteps || info.edep != 0.0)
  }

  function PreRows(s: State, info: StepInfo, id: int): seq<Row> {
    if PreRecorded(s, info) then [PreRow(info, id)] else []
  }

  function PostRows(c: Config, info: StepInfo, id: int): seq<Row> {
    if PostRecorded(c, info, id) then [PostRow(info, id)] else []
  }

  function RecordPre(s: State, info: StepInfo, id: int): (r: State)
    requires Valid(s)
    ensures Valid(r)
    ensures Rows(r.columns) == Rows(s.columns) + PreRows(s, info, id)
    ensures r.written == s.written + Echo(s, PreRows(s, info, id))
    ensures r == s.(columns := r.columns, written := r.written)
  {
    if PreRecorded(s, info) then Record(s, PreRow(info, id))
    else
      assert Rows(s.columns) + [] == Rows(s.columns);
      s
  }

  function RecordPost(s: State, info: StepInfo, id: int): (r: State)
    requires Valid(s)
    ensures Valid(r)
    ensures Rows(r.columns) == Rows(s.columns) + PostRows(s.config, info, id)
    ensures r.written == s.written + Echo(s, PostRows(s.config, info, id))
    ensures r == s.(columns := r.columns, written := r.written)
  {
    if id == VolumeIds.NotSensitive then
      assert Rows(s.columns) + [] == Rows(s.columns);
      s
    else if !s.config.recordAllSteps && info.edep == 0.0 then
      assert Rows(s.columns) + [] == Rows(s.columns);
      s
    else Record(s, PostRow(info, id))
  }

  /** The rows the buffer still holds from before the step: all of them when
      the output was open and the event did not change, none otherwise. */
  function Kept(s: State, info: StepInfo): seq<Row>
    requires Aligned(s.columns)
  {
    if s.fileOpen && PreviousEvent(s, info.eventID) == info.eventID then Rows(s.columns) else []
  }

  /** The rows one successful step adds to the buffer, in order. */
  function Added(s: State, info: StepInfo, id: int): seq<Row>
    requires Aligned(s.columns)
  {
    (if |Kept(s, info)| == 0 || (s.config.recordAllSteps && info.stepNumber == 1) then [PreRow(info, id)] else [])
    + PostRows(s.config, info, id)
  }

  /** What a step writes on a change of event in the event-wise option. */
  function Flushed(s: State, info: StepInfo): seq<Output>
    requires Aligned(s.columns)
  {
    if s.fileOpen && PreviousEvent(s, info.eventID) != info.eventID
    then FlushRows(s, PreviousEvent(s, info.eventID)) else []
  }

  /** Lines 384-539: everything after the hit crediting. */
  function Advance(s: State, info: StepInfo, id: int): (r: State)
    requires Valid(s)
    ensures Valid(r) && r.fileOpen && r.eventNumber == info.eventID
    ensures r.lastEvent == OpticalTypes.Some(info.eventID)
    ensures r.config == s.config && r.hits == s.hits
    ensures Rows(r.columns) == Kept(s, info) + Added(s, info, id)
    ensures s.config.option == StepWise ==>
              r.written == s.written + StepRows(r.nEvents, info.eventID, Added(s, info, id))
    ensures s.config.option == EventWise ==> r.written == s.written + Flushed(s, info)
    ensures r.cache == (if s.fileOpen then s.cache else map[])
    ensures r.nEvents == (if s.fileOpen then s.nEvents else info.eventsToProcess)
  {
    var s1 := OpenOutput(s, info.eventsToProcess);
    var s2 := EventChange(s1, info.eventID);
    var s3 := RecordPre(s2, info, id);
    var s4 := RecordPost(s3, info, id);
    AdvanceSteps(s, info, id, s1, s2);
    AdvanceRecords(s, info, id, s2, s3, s4);
    s4
  }

  lemma AdvanceSteps(s: State, info: StepInfo, id: int, s1: State, s2: State)
    requires Valid(s)
    requires s1 == OpenOutput(s, info.eventsToProcess)
    requires s2 == EventChange(s1, info.eventID)
    ensures Rows(s2.columns) == Kept(s, info)
    ensures PreRows(s2, info, id) + PostRows(s.config, info, id) == Added(s, info, id)
    ensures s.config.option == StepWise ==> s2.written == s.written
    ensures s.config.option == EventWise ==> s2.written == s.written + Flushed(s, info)
  {
    if !s.fileOpen {
      assert Size(s2.columns) == 0;
      assert FlushRows(s1, PreviousEvent(s1, info.eventID)) == [];
    }
  }

  lemma AdvanceRecords(s: State, info: StepInfo, id: int, s2: State, s3: State, s4: State)
    requires Valid(s2)
    requires s3 == RecordPre(s2, info, id)
    requires s4 == RecordPost(s3, info, id)
    requires s2.config == s.config
    ensures Rows(s4.columns) == Rows(s2.columns) + (PreRows(s2, info, id) + PostRows(s.config, info, id))
    ensures s4.written == s2.written + Echo(s2, PreRows(s2, info, id) + PostRows(s.config, info, id))
    ensures s4 == s2.(columns := s4.columns, written := s4.written)
  {
    var pre := PreRows(s2, info, id);
    var post := PostRows(s.config, info, id);
    assert Rows(s4.columns) == Rows(s2.columns) + pre + post;
    StepRowsAppend(s2.nEvents, s2.eventNumber, pre, post);
    assert s4.written == s2.written + Echo(s2, pre) + Echo(s2, post);
  }

  /** UserSteppingAction. A replacement `std::stoi` cannot parse and a hit on
      an ID outside the counter both throw an exception nothing catches, which
      ends the run; a failure therefore carries no state. (By then the source
      has already written the volume's cache entry.) */
  function UserSteppingAction(s: State, info: StepInfo): (r: Result<Stepped>)
    requires Valid(s)
    ensures VolumeIds.Assign(s.cache, info.postVolume, s.config.rules, s.config.recordAllSteps).Failure? ==>
              r.Failure? && r.error.VolIdError?
    ensures r.Ok? ==>
              var a := VolumeIds.Assign(s.cache, info.postVolume, s.config.rules, s.config.recordAllSteps);
              a.Ok? && r.value.id == a.value.id
    ensures r.Ok? ==> Valid(r.value.state)
    ensures r.Ok? ==> r.value.state.fileOpen && r.value.state.eventNumber == info.eventID
                      && r.value.state.lastEvent == OpticalTypes.Some(info.eventID)
    ensures r.Ok? ==> r.value.kill == FiberCatch(info, s.config.fiberDetProb)
    ensures r.Ok? ==> HitCounter.Total(r.value.state.hits.counts) ==
                        HitCounter.Total(s.hits.counts) + (if Detected(info) || FiberCatch(info, s.config.fiberDetProb) then 1 else 0)
    ensures r.Ok? ==> Rows(r.value.state.columns) == Kept(s, info) + Added(s, info, r.value.id)
    ensures r.Ok? && s.config.option == StepWise ==>
              r.value.state.written == s.written + StepRows(r.value.state.nEvents, info.eventID, Added(s, info, r.value.id))
    ensures r.Ok? && s.config.option == EventWise ==> r.value.state.written == s.written + Flushed(s, info)
    ensures r.Ok? ==> r.value.state.config == s.config
    ensures r.Failure? <==>
              var a := VolumeIds.Assign(s.cache, info.postVolume, s.config.rules, s.config.recordAllSteps);
              || a.Failure?
              || ((Detected(info) || FiberCatch(info, s.config.fiberDetProb)) && !HitCounter.InRange(s.hits, a.value.id))
    ensures r.Ok? ==>
              var a := VolumeIds.Assign(s.cache, info.postVolume, s.config.rules, s.config.recordAllSteps);
              r.value.state.hits ==
                (if Detected(info) || FiberCatch(info, s.config.fiberDetProb)
                 then HitCounter.Increment(s.hits, a.value.id).value else s.hits)
    ensures r.Ok? ==>
              var a := VolumeIds.Assign(s.cache, info.postVolume, s.config.rules, s.config.recordAllSteps);
              r.value.state.cache == (if s.fileOpen then a.value.cache else map[])
    ensures r.Ok? ==> r.value.state.nEvents == (if s.fileOpen then s.nEvents else info.eventsToProcess)
  {
    match VolumeIds.Assign(s.cache, info.postVolume, s.config.rules, s.config.recordAllSteps)
    case Failure(e) => Failure(VolIdError(e))
    case Ok(a) =>
      match Credit(s.hits, a.id, info, s.config.fiberDetProb)
      case Failure(e) => Failure(e)
      case Ok(c) =>
        var s' := s.(cache := a.cache, hits := c.hits);
        assert Kept(s', info) == Kept(s, info) && Added(s', info, a.id) == Added(s, info, a.id);
        assert Flushed(s', info) == Flushed(s, info);
        Ok(Stepped(Advance(s', info, a.id), a.id, c.kill))
  }

  /** The destructor: in the event-wise option the buffer still holds the last
      event, which is written under the current event number; the file is
      then closed. */
  function Close(s: State): (r: State)
    requires Valid(s)
    ensures !r.fileOpen
    ensures !s.fileOpen ==> r == s
    ensures s.fileOpen ==> r.written == s.written + FlushRows(s, s.eventNumber)
  {
    if s.fileOpen then s.(written := s.written + FlushRows(s, s.eventNumber), fileOpen := false)
    else s
  }

  // ---------------------------------------------------------------------------
  // Properties
  // ---------------------------------------------------------------------------

  /** Every successful step leaves at least one record in the buffer: the
      first step of an event always records its pre-step point. */
  lemma StepLeavesRecord(s: State, info: StepInfo)
    requires Valid(s)
    ensures UserSteppingAction(s, info).Ok? ==> Size(UserSteppingAction(s, info).value.state.columns) > 0
  {
    if UserSteppingAction(s, info).Ok? {
      var r := UserSteppingAction(s, info).value;
      assert |Rows(r.state.columns)| == |Kept(s, info)| + |Added(s, info, r.id)|;
    }
  }

  /** Rows survive a step only within one event: after a step of a new event
      the buffer holds just what that step recorded. */
  lemma NewEventStartsEmpty(s: State, info: StepInfo)
    requires Valid(s)
    requires s.lastEvent.Some? && s.lastEvent.value != info.eventID
    ensures UserSteppingAction(s, info).Ok? ==>
              var r := UserSteppingAction(s, info).value;
              Rows(r.state.columns) == [PreRow(info, r.id)] + PostRows(s.config, info, r.id)
  {
  }

  /** The event-change block as written labels the previous event's buffer with
      the NEW event's number: after any step of event `e` the buffer is not
      empty, and on the next event `next` it is written under `next`, not `e`.
      (The buffer only ever holds rows of one event: see NewEventStartsEmpty.) */
  lemma EventChangeAsWrittenMislabels(s: State, info: StepInfo, next: int)
    requires Valid(s) && s.config.option == EventWise
    requires next != info.eventID
    ensures UserSteppingAction(s, info).Ok? ==>
              var r := UserSteppingAction(s, info).value.state;
              var out := EventChangeAsWritten(r, next).written;
              && Size(r.columns) > 0
              && out == r.written + [EventRows(r.nEvents, next, Rows(r.columns))]
              && out[|out| - 1].event != info.eventID
  {
    StepLeavesRecord(s, info);
  }

  /** A fresh action in the event-wise option with a one-index counter. */
  function EventWiseStart(): (s: State)
    ensures Valid(s) && !s.fileOpen && s.written == [] && s.config.option == EventWise
  {
    Construct(HitCounter.Counter([0])).(config := Initial.(format := Root, option := EventWise))
  }

  /** The first step of MislabelScenario: it opens the file, writes nothing
      and leaves its two records in the buffer under event 0. */
  lemma MislabelFirstStep(info: StepInfo)
    requires info.postVolume == VolumeIds.NullVolume && info.boundary == OpticalTypes.None
    requires info.eventID == 0 && info.edep == 1.0
    ensures var r := UserSteppingAction(EventWiseStart(), info);
            && r.Ok?
            && r.value.state.written == []
            && r.value.state.lastEvent == OpticalTypes.Some(0)
            && r.value.state.nEvents == info.eventsToProcess
            && r.value.state.config.option == EventWise
            && Rows(r.value.state.columns) == [PreRow(info, 0), PostRow(info, 0)]
  {
    var s := EventWiseStart();
    assert VolumeIds.Assign(s.cache, info.postVolume, s.config.rules, s.config.recordAllSteps) ==
             VolumeIds.Ok(VolumeIds.Assigned(0, s.cache[info.postVolume := 0]));
    assert !Detected(info) && !FiberCatch(info, s.config.fiberDetProb);
    assert Kept(s, info) == [] && Flushed(s, info) == [];
    assert Added(s, info, 0) == [PreRow(info, 0), PostRow(info, 0)];
  }

  /** The discrepancy on concrete values: in the event-wise option, one step of
      event 0 that deposits energy and leaves the world (no post-step volume,
      which keeps ID 0 while no rule is registered) fills the buffer with its
      pre-step and post-step records; the first step of event 1 then
      writes both records as the row of event 1, where the corrected block
      writes them as the row of event 0. */
  lemma MislabelScenario(info: StepInfo)
    requires info.postVolume == VolumeIds.NullVolume && info.boundary == OpticalTypes.None
    requires info.eventID == 0 && info.edep == 1.0
    ensures var r := UserSteppingAction(EventWiseStart(), info);
            && r.Ok?
            && EventChangeAsWritten(r.value.state, 1).written ==
                 [EventRows(info.eventsToProcess, 1, [PreRow(info, 0), PostRow(info, 0)])]
            && EventChange(r.value.state, 1).written ==
                 [EventRows(info.eventsToProcess, 0, [PreRow(info, 0), PostRow(info, 0)])]
  {
    MislabelFirstStep(info);
    var st := UserSteppingAction(EventWiseStart(), info).value.state;
    FlushOfFirstEvent(st, [PreRow(info, 0), PostRow(info, 0)]);
  }

  /** Both blocks on a buffer of event 0 that nothing has been written from. */
  lemma FlushOfFirstEvent(st: State, rows: seq<Row>)
    requires Valid(st) && st.config.option == EventWise
    requires st.written == [] && st.lastEvent == OpticalTypes.Some(0)
    requires Rows(st.columns) == rows && rows != []
    ensures EventChangeAsWritten(st, 1).written == [EventRows(st.nEvents, 1, rows)]
    ensures EventChange(st, 1).written == [EventRows(st.nEvents, 0, rows)]
  {
  }

  /** The corrected event change writes the buffer under the number of the
      event it was filled in. */
  lemma EventChangeLabelsFilledEvent(s: State, info: StepInfo, next: int)
    requires Valid(s) && s.config.option == EventWise
    requires next != info.eventID
    ensures UserSteppingAction(s, info).Ok? ==>
              var r := UserSteppingAction(s, info).value.state;
              EventChange(r, next).written == r.written + [EventRows(r.nEvents, info.eventID, Rows(r.columns))]
  {
    StepLeavesRecord(s, info);
  }

  /** The destructor writes the last event under its own number. */
  lemma CloseLabelsLastEvent(s: State, info: StepInfo)
    requires Valid(s) && s.config.option == EventWise
    ensures UserSteppingAction(s, info).Ok? ==>
              var r := UserSteppingAction(s, info).value.state;
              Close(r).written == r.written + [EventRows(r.nEvents, info.eventID, Rows(r.columns))]
  {
    StepLeavesRecord(s, info);
  }

  /** A detection in a volume with the "not sensitive" ID always throws: the
      counter has no index -1. */
  lemma InsensitiveDetectionThrows(hits: HitCounter.Counter, info: StepInfo, fiberDetProb: real)
    requires Detected(info)
    ensures Credit(hits, VolumeIds.NotSensitive, info, fiberDetProb) ==
              Failure(CountError(HitCounter.VolIdOutOfBounds(VolumeIds.NotSensitive)))
  {
  }

  /** With the single-index counter the run manager builds, a credited hit
      succeeds only in a volume whose ID is 0: a detection in a volume whose
      cached ID is not 0 always throws, and so does one in a volume seen for
      the first time once rules are registered and only sensitive volumes are
      recorded. */
  lemma SingleIndexCounterRejectsClassifiedVolumes(s: State, info: StepInfo)
    requires Valid(s) && |s.hits.counts| == 1
    requires VolumeIds.Cached(s.cache, info.postVolume) != VolumeIds.Unclassified
             || (s.config.rules != [] && !s.config.recordAllSteps)
    requires Detected(info) || FiberCatch(info, s.config.fiberDetProb)
    ensures UserSteppingAction(s, info).Failure?
  {
  }
}

=== FILE: stepping_config.dfy ===
/** The stepping action's configuration and the UI commands that change it
    (`G4SimpleSteppingAction::SetNewValue`): output format, output option,
    volume-ID rules, the record-all-steps flag and the fiber detection
    probability. */
module SteppingConfig {
  import VolumeIds
  import IntParse

  datatype Format = Csv | Xml | Root | Hdf5

  datatype OutputOption = StepWise | EventWise

  datatype Config = Config(
    format: Format,
    option: OutputOption,
    recordAllSteps: bool,
    rules: seq<VolumeIds.Rule>,
    fiberDetProb: real)

  /** The values the constructor sets. */
  const Initial: Config := Config(Csv, StepWise, false, [], 0.0)

  /** The commands, with the argument text the UI passes on; the boolean and
      the real are already converted by the UI command classes. */
  datatype Command =
    | SetVolID(arguments: string)
    | SetOutputFormat(value: string)
    | SetOutputOption(value: string)
    | RecordAllSteps(flag: bool)
    | SetFiberDetProb(probability: real)

  /** The first white-space separated word of `s`, and what follows it: what
      `istream >> string` extracts. The word and the rest together are `s`
      without its leading white space. */
  function NextWord(s: string): (r: (string, string))
    ensures forall i :: 0 <= i < |r.0| ==> !IntParse.IsSpace(r.0[i])
    ensures r.1 == [] || IntParse.IsSpace(r.1[0])
    ensures |r.1| <= |s|
    ensures r.0 == [] ==> r.1 == []
    ensures r.0 + r.1 == IntParse.SkipSpace(s)
  {
    var t := IntParse.SkipSpace(s);
    var n := WordLength(t);
    assert t[..n] + t[n..] == t;
    (t[..n], t[n..])
  }

  function WordLength(s: string): (n: nat)
    ensures n <= |s|
    ensures forall i :: 0 <= i < n ==> !IntParse.IsSpace(s[i])
    ensures n == |s| || IntParse.IsSpace(s[n])
    ensures n == 0 ==> s == [] || IntParse.IsSpace(s[0])
  {
    if s != [] && !IntParse.IsSpace(s[0]) then 1 + WordLength(s[1..]) else 0
  }

  /** `iss >> pattern >> replacement`: the first two words, empty when missing. */
  function ParseVolIDArguments(arguments: string): VolumeIds.Rule
  {
    var (pattern, rest) := NextWord(arguments);
    var (replacement, _) := NextWord(rest);
    VolumeIds.Rule(pattern, replacement)
  }

  /** SetNewValue. A format sets its recommended option too; a later option
      command overrides only the option; an unknown value changes nothing. */
  function SetNewValue(c: Config, cmd: Command): (r: Config)
    ensures cmd.SetVolID? ==> r == c.(rules := c.rules + [ParseVolIDArguments(cmd.arguments)])
    ensures !cmd.SetVolID? ==> r.rules == c.rules
    ensures cmd.SetOutputOption? ==> r.format == c.format && r.recordAllSteps == c.recordAllSteps
    ensures !cmd.SetOutputFormat? && !cmd.SetOutputOption? ==> r.format == c.format && r.option == c.option
  {
    match cmd
    case SetVolID(arguments) => c.(rules := c.rules + [ParseVolIDArguments(arguments)])
    case SetOutputFormat(value) =>
      if value == "csv" then c.(format := Csv, option := StepWise)
      else if value == "xml" then c.(format := Xml, option := EventWise)
      else if value == "root" then c.(format := Root, option := EventWise)
      else if value == "hdf5" then c.(format := Hdf5, option := StepWise)
      else c
    case SetOutputOption(value) =>
      if value == "stepwise" then c.(option := StepWise)
      else if value == "eventwise" then c.(option := EventWise)
      else c
    case RecordAllSteps(flag) => c.(recordAllSteps := flag)
    case SetFiberDetProb(probability) => c.(fiberDetProb := probability)
  }

  /** The format each name selects, with its recommended option. */
  function FormatNamed(name: string): (f: (Format, OutputOption))
    requires name in {"csv", "xml", "root", "hdf5"}
  {
    match name
    case "csv" => (Csv, StepWise)
    case "xml" => (Xml, EventWise)
    case "root" => (Root, EventWise)
    case _ => (Hdf5, StepWise)
  }

  /** The format command sets exactly the (format, option) pair of the table
      and leaves rules, flag and probability alone. */
  lemma FormatCommandTable(c: Config, name: string)
    requires name in {"csv", "xml", "root", "hdf5"}
    ensures var r := SetNewValue(c, SetOutputFormat(name));
            (r.format, r.option) == FormatNamed(name) && r.rules == c.rules
            && r.recordAllSteps == c.recordAllSteps && r.fiberDetProb == c.fiberDetProb
  {
  }

  /** A format command followed by an option command: the format stays, the
      option is the one asked for last. */
  lemma OptionOverridesOnlyOption(c: Config, name: string, option: string)
    requires name in {"csv", "xml", "root", "hdf5"}
    requires option in {"stepwise", "eventwise"}
    ensures var r := SetNewValue(SetNewValue(c, SetOutputFormat(name)), SetOutputOption(option));
            r.format == FormatNamed(name).0
            && r.option == (if option == "stepwise" then StepWise else EventWise)
  {
  }

  /** A registration is appended, so rules registered earlier keep precedence:
      a name that an earlier rule already matched is classified exactly as
      before the new registration. */
  lemma EarlierRegistrationWins(c: Config, arguments: string, name: string, recordAll: bool)
    requires VolumeIds.Matches(c.rules, name)
    ensures var r := SetNewValue(c, SetVolID(arguments));
            VolumeIds.Classify(r.rules, name, recordAll) == VolumeIds.Classify(c.rules, name, recordAll)
  {
    VolumeIds.FirstMatchWins(c.rules, [ParseVolIDArguments(arguments)], name, recordAll);
  }

  lemma NoSpaceWord(w: string, rest: string)
    requires forall i :: 0 <= i < |w| ==> !IntParse.IsSpace(w[i])
    requires rest == [] || IntParse.IsSpace(rest[0])
    ensures WordLength(w + rest) == |w|
  {
    if w != [] {
      assert (w + rest)[1..] == w[1..] + rest;
      NoSpaceWord(w[1..], rest);
    } else {
      assert w + rest == rest;
    }
  }

  /** The argument text "pattern replacement" parses back into the rule it was
      written from, whenever both words are nonempty and free of white space. */
  lemma VolIDArgumentsRoundTrip(pattern: string, replacement: string)
    requires pattern != [] && replacement != []
    requires forall i :: 0 <= i < |pattern| ==> !IntParse.IsSpace(pattern[i])
    requires forall i :: 0 <= i < |replacement| ==> !IntParse.IsSpace(replacement[i])
    ensures ParseVolIDArguments(pattern + " " + replacement) == VolumeIds.Rule(pattern, replacement)
  {
    var s := pattern + " " + replacement;
    assert IntParse.SkipSpace(s) == s;
    NoSpaceWord(pattern, " " + replacement);
    assert s == pattern + (" " + replacement);
    assert s[..|pattern|] == pattern;
    var rest := s[|pattern|..];
    assert rest == " " + replacement;
    assert IntParse.SkipSpace(rest) == IntParse.SkipSpace(replacement);
    assert IntParse.SkipSpace(replacement) == replacement;
    NoSpaceWord(replacement, []);
    assert replacement + [] == replacement;
  }
}

=== FILE: volume_ids.dfy ===
/** The stepping action's volume-ID cache. Every physical volume a step ends in
    gets an integer ID the first time it is seen, by exact name match against
    an ordered list of (pattern, replacement) pairs; the ID is then cached.
    0 means "not yet classified", -1 means "not sensitive"; a replacement that
    parses to 0 or -1 is refused. */
module VolumeIds {
  import IntParse

  /** A physical-volume handle as the cache keys it: the post-step point may have
      no volume at all (the photon left the world). */
  datatype Volume = NullVolume | Physical(handle: nat, name: string)

  /** A `/g4simple/setVolID` registration: volumes named `pattern` get the ID
      that `replacement` parses to. */
  datatype Rule = Rule(pattern: string, replacement: string)

  type Cache = map<Volume, int>

  datatype Error = BadReplacement(replacement: string, reason: IntParse.Error)

  datatype Result<T> = Ok(value: T) | Failure(error: Error)

  /** The ID and the cache after the lookup for one step. */
  datatype Assigned = Assigned(id: int, cache: Cache)

  const Unclassified: int := 0
  const NotSensitive: int := -1

  /** The name the lookup compares against; a missing volume is called "NULL". */
  function NameOf(v: Volume): string {
    if v.NullVolume? then "NULL" else v.name
  }

  /** A replacement value the lookup accepts: neither 0 nor -1. */
  predicate Admissible(id: int) {
    id != Unclassified && id != NotSensitive
  }

  /** `i` is the first rule, in registration order, whose pattern equals `name`. */
  predicate IsFirstMatch(rules: seq<Rule>, name: string, i: nat) {
    && i < |rules|
    && rules[i].pattern == name
    && forall j :: 0 <= j < i ==> rules[j].pattern != name
  }

  predicate Matches(rules: seq<Rule>, name: string) {
    exists i :: 0 <= i < |rules| && rules[i].pattern == name
  }

  /** The scan of lines 266-279 up to its `break`: the index of the first rule
      whose pattern is exactly `name`, if any. */
  function FirstMatch(rules: seq<Rule>, name: string): (r: Option)
    ensures r.Some? <==> Matches(rules, name)
    ensures r.Some? ==> IsFirstMatch(rules, name, r.index)
  {
    if rules == [] then None
    else if rules[0].pattern == name then Some(0)
    else match FirstMatch(rules[1..], name)
      case None => None
      case Some(k) => assert rules[k + 1] == rules[1..][k]; Some(k + 1)
  }

  datatype Option = None | Some(index: nat)

  /** The ID a volume with cached ID 0 is given when at least one rule exists
      (lines 266-280): the first matching rule's replacement if it parses to an
      admissible value; otherwise 0, which becomes -1 unless every step is
      recorded. A replacement `std::stoi` rejects throws. */
  function Classify(rules: seq<Rule>, name: string, recordAll: bool): (r: Result<int>)
    ensures r.Failure? <==>
              (Matches(rules, name) && IntParse.Stoi(rules[FirstMatch(rules, name).index].replacement).Failure?)
    ensures r.Ok? && Admissible(r.value) ==>
              exists i: nat :: IsFirstMatch(rules, name, i) && IntParse.Stoi(rules[i].replacement) == IntParse.Parsed(r.value)
    ensures r.Ok? && r.value == Unclassified ==> recordAll
    ensures r.Ok? && r.value == NotSensitive ==> !recordAll
    ensures !Matches(rules, name) ==> r == Ok(if recordAll then Unclassified else NotSensitive)
    ensures Matches(rules, name) && IntParse.Stoi(rules[FirstMatch(rules, name).index].replacement).Parsed? ==>
              var v := IntParse.Stoi(rules[FirstMatch(rules, name).index].replacement).value;
              r == Ok(if Admissible(v) then v else if recordAll then Unclassified else NotSensitive)
  {
    var fallback := if recordAll then Unclassified else NotSensitive;
    match FirstMatch(rules, name)
    case None => Ok(fallback)
    case Some(i) =>
      match IntParse.Stoi(rules[i].replacement)
      case Failure(e) => Failure(BadReplacement(rules[i].replacement, e))
      case Parsed(v) => if Admissible(v) then Ok(v) else Ok(fallback)
  }

  /** The cached ID of `v`; `map::operator[]` reads an absent key as 0. */
  function Cached(cache: Cache, v: Volume): int {
    if v in cache then cache[v] else Unclassified
  }

  /** Lines 262-282: look the post-step volume up, classify it when its cached
      ID is 0 and there are rules, and write the result back. `operator[]`
      inserts the volume with ID 0 even when nothing is classified. */
  function Assign(cache: Cache, v: Volume, rules: seq<Rule>, recordAll: bool): (r: Result<Assigned>)
    ensures Cached(cache, v) != Unclassified ==> r == Ok(Assigned(cache[v], cache))
    ensures r.Ok? ==> r.value.cache == cache[v := r.value.id]
    ensures r.Ok? && Cached(cache, v) == Unclassified && rules != [] ==>
              r.value.id != Unclassified || recordAll
    ensures rules == [] ==> r == Ok(Assigned(Cached(cache, v), cache[v := Cached(cache, v)]))
    ensures Cached(cache, v) == Unclassified && rules != [] ==>
              match Classify(rules, NameOf(v), recordAll)
              case Failure(e) => r == Failure(e)
              case Ok(id) => r == Ok(Assigned(id, cache[v := id]))
  {
    var id := Cached(cache, v);
    if id == Unclassified && rules != [] then
      match Classify(rules, NameOf(v), recordAll)
      case Failure(e) => Failure(e)
      case Ok(id') => Ok(Assigned(id', cache[v := id']))
    else
      assert v in cache ==> cache[v := id] == cache;
      Ok(Assigned(id, cache[v := id]))
  }

  /** The rule lookup depends on the first matching rule only: anything
      registered after it, matching or not, is never consulted. */
  lemma FirstMatchWins(rules: seq<Rule>, later: seq<Rule>, name: string, recordAll: bool)
    requires Matches(rules, name)
    ensures Classify(rules + later, name, recordAll) == Classify(rules, name, recordAll)
  {
    var i := FirstMatch(rules, name).index;
    assert (rules + later)[i] == rules[i];
    FirstMatchIsUnique(rules + later, name, i, FirstMatch(rules + later, name).index);
  }

  lemma FirstMatchIsUnique(rules: seq<Rule>, name: string, i: nat, j: nat)
    requires IsFirstMatch(rules, name, i) && IsFirstMatch(rules, name, j)
    ensures i == j
  {
  }

  /** A matching rule whose replacement parses to 0 or -1 is refused, and it
      still ends the search: the volume is left at 0, or -1 when only steps in
      sensitive volumes are recorded. */
  lemma RefusedReplacementEndsSearch(rules: seq<Rule>, i: nat, name: string, recordAll: bool)
    requires IsFirstMatch(rules, name, i)
    requires IntParse.Stoi(rules[i].replacement).Parsed?
    requires !Admissible(IntParse.Stoi(rules[i].replacement).value)
    ensures Classify(rules, name, recordAll) == Ok(if recordAll then Unclassified else NotSensitive)
  {
    FirstMatchIsUnique(rules, name, i, FirstMatch(rules, name).index);
  }

  /** Looking the same volume up twice in a row gives the same ID and leaves
      the cache as the first lookup left it. */
  lemma AssignIdempotent(cache: Cache, v: Volume, rules: seq<Rule>, recordAll: bool)
    requires Assign(cache, v, rules, recordAll).Ok?
    ensures var a := Assign(cache, v, rules, recordAll).value;
            Assign(a.cache, v, rules, recordAll) == Ok(a)
  {
    var a := Assign(cache, v, rules, recordAll).value;
    assert Cached(a.cache, v) == a.id;
    assert a.cache[v := a.id] == a.cache;
  }

  /** A lookup never changes an ID other than the looked-up volume's, and never
      changes a nonzero ID at all. */
  lemma AssignKeepsClassifiedIds(cache: Cache, v: Volume, rules: seq<Rule>, recordAll: bool, w: Volume)
    requires Assign(cache, v, rules, recordAll).Ok?
    requires w in cache && cache[w] != Unclassified
    ensures var a := Assign(cache, v, rules, recordAll).value;
            w in a.cache && a.cache[w] == cache[w]
  {
  }

  /** The end-to-end volume-ID scenario: with the single rule
      ("innerShroud", "7"), the first step into a volume of that name gives ID 7
      and caches it; the next step into it reads 7 back without a new match. */
  lemma InnerShroudScenario(h: nat, recordAll: bool)
    ensures var v := Physical(h, "innerShroud");
            var rules := [Rule("innerShroud", "7")];
            && Assign(map[], v, rules, recordAll) == Ok(Assigned(7, map[v := 7]))
            && Assign(map[v := 7], v, rules, recordAll) == Ok(Assigned(7, map[v := 7]))
  {
    var v := Physical(h, "innerShroud");
    var rules := [Rule("innerShroud", "7")];
    IntParse.RenderRoundTrip(7, "");
    assert IntParse.Render(7) + "" == "7";
    assert FirstMatch(rules, NameOf(v)) == Some(0);
    assert Classify(rules, NameOf(v), recordAll) == Ok(7);
  }
}
